=== FILE: README.md ===
# sanitize_vba, modelled in Dafny

`sanitize_vba.py` edits the compiled macro project of an `.xlsm` workbook. It
treats the workbook as a ZIP container and the entry `xl/vbaProject.bin` as an
opaque blob. It replaces every occurrence of a search text in that blob and
writes the container back. The whole edit runs as a small transaction: it
makes a backup, works on a staging copy, swaps the new file in, and restores
from the backup if anything goes wrong. A separate read-only pass,
`verify_replacement`, counts what is left.

The project models that core in five modules:

- `Search` (`search.dfy`): non-overlapping, left-to-right counting and
  replacing (`Count`, `Replace`), as Python's `str.count` and `str.replace` do
  it with a non-empty needle. The independent definition is the unique
  *leftmost split* (`IsLeftmostSplit`), which cuts the haystack at occurrences
  of the needle. `Split` and `Join` connect the two.
- `Latin1` (`latin1.dfy`): `bytes.decode('latin-1')` and
  `str.encode('latin-1', errors='ignore')`. Counting and replacing in the
  decoded text are the same as counting and replacing on the bytes.
- `Patcher` (`patcher.dfy`): what the sanitizer does with the blob. It
  decodes, counts, returns early when nothing matches, replaces, counts again
  and encodes.
- `Archive` (`archive.dfy`): the container as a map from entry name to
  bytes. Extraction stages each entry at `<root>/<name>`. Repacking stores
  every staged file under its path relative to the root.
- `Transaction` (`transaction.dfy`): the file system is a map from path to
  content. A container is `ZipFile(entries)`. Each file-system step the
  sanitizer takes can be made to fail by naming it in a set of faults. A run
  ends in one of these exits:
  - an exception escapes;
  - no macro project;
  - nothing to replace;
  - restored from the backup;
  - replaced, with a count.

  `VerifyReplacement` is the checker's −1-or-count convention.

Bytes are `Bytes.Byte`, the integers 0 to 255. Search and replacement texts
are taken as byte sequences, and the search text must be non-empty.

Two consequences of the code as written:

- The value returned is `count_before - count_after` (sanitize_vba.py:78, 112). The docstring (lines 24-25) calls it the number of replacements, but it is not. `Patcher.RematchAcrossSeam` shows a replacement without the search text creating a new occurrence across a seam, which gives 0 after one real substitution. `Patcher.ReportedCanBeNegative` shows a replacement containing the search text giving −1.
- When writing entries into `.temp` fails after the file was created (lines 97-102), or the swap fails (lines 107-108), the `.temp` output stays behind. Lines 96-124 never remove it. `Transaction.Pack` and `Transaction.Sanitize` state what it then holds.

## Model

| member | source | states |
|---|---|---|
| Search.SplitIsLeftmost | sanitize_vba.py:66-74 | The split that counting and replacing walk through is a leftmost split. Its pieces joined by the needle give back the haystack. No occurrence starts inside a piece before its cut. The last piece has no occurrence. |
| Search.LeftmostUnique | sanitize_vba.py:66-74 | A haystack has only one leftmost split, so "non-overlapping, leftmost first" determines the occurrences. |
| Search.LeftmostSplitCharacterizes | sanitize_vba.py:66-74 | For any leftmost split, `Count` is the number of cuts and `Replace` is the pieces joined by the replacement. Every byte between occurrences is copied in order. |
| Search.SplitJoinRoundTrip | sanitize_vba.py:74 | Joining the pieces with the needle restores the haystack, and replacing the needle by itself changes nothing. |
| Search.ReplaceLength | sanitize_vba.py:84-88 | The replaced blob's length is the original length plus count × (\|replace\| − \|search\|). That is the size difference the tool prints. |
| Search.CountBound | sanitize_vba.py:66 | The counted occurrences do not overlap: count × \|search\| ≤ \|blob\|. |
| Search.CountZeroIffNoMatch | sanitize_vba.py:66-71 | The count is 0 exactly when the needle occurs at no position. This is the early-return test. |
| Search.ReplaceUnmatched | sanitize_vba.py:69-74 | With no occurrence, replacing returns the blob unchanged. |
| Latin1.Decode | sanitize_vba.py:63 | Decoding gives one code point per byte, with the same value and below 256. |
| Latin1.Encode | sanitize_vba.py:84 | Encoding with errors ignored never makes the result longer than the text. It keeps the length exactly when every code point is below 256, and then each code point becomes the byte of the same value, in order. |
| Latin1.EncodeConcat | sanitize_vba.py:84 | Encoding works code point by code point: the encoding of a concatenation is the concatenation of the encodings. |
| Latin1.EncodeDropsOthers | sanitize_vba.py:84 | A code point above 255 is silently dropped: encoding a text with it gives the same bytes as encoding the text without it. |
| Latin1.EncodeDecode | sanitize_vba.py:63-84 | Encoding the decoding of any byte sequence gives back the same bytes. |
| Latin1.DecodeEncode | sanitize_vba.py:84 | Decoding the encoding of a text gives back that text exactly when every code point is below 256. |
| Latin1.CountDecode | sanitize_vba.py:63-66 | Counting in the decoded text gives the byte-level count. |
| Latin1.ReplaceDecode | sanitize_vba.py:63-84 | Replacing in the decoded text is the decoding of the byte-level replacement. |
| Patcher.PatchBlob | sanitize_vba.py:56-88 | There is no patch exactly when the search bytes do not occur. Otherwise: the count before is the byte count and positive; the patched bytes are the byte-level replacement; the count after is the count in the patched bytes; the length grows or shrinks by \|replace\| − \|search\| per occurrence. |
| Patcher.ReportedBound | sanitize_vba.py:77-78 | The reported number, before − after, is at most the occurrences replaced. It equals them exactly when the patched blob has no occurrence left. |
| Patcher.RematchAcrossSeam | sanitize_vba.py:74-78 | In "abb", replacing "ab" by "a" gives "ab". One occurrence is replaced, one is found afterwards, and 0 is reported. |
| Patcher.ReportedCanBeNegative | sanitize_vba.py:77-78 | Replacing "a" by "aa" in "a" reports −1. |
| Patcher.ScenarioPatch | sanitize_vba.py:63-84 | "XXfooXXbarXX" with "XX" replaced by "Y": 3 before, 0 after, bytes "YfooYbarY". |
| Archive.CleanName | sanitize_vba.py:43 | A name that extraction writes under exactly that relative path: not absolute, not a directory entry, and made of non-empty parts none of which is `.` or `..`. |
| Archive.RelPath | sanitize_vba.py:101 | The relative path of a file inside the staging root is non-empty and joins back to that file. |
| Archive.Stage | sanitize_vba.py:42-43 | Extraction puts every entry at `<root>/<name>` with its content. Every staged file is inside the root and comes from the entry of its relative name. |
| Archive.Repack | sanitize_vba.py:97-102 | Every file inside the root is stored under its relative path with its content. Every stored entry comes from such a file. |
| Archive.RepackStage | sanitize_vba.py:42-102 | Repacking what was extracted gives the same entries with the same contents. |
| Archive.RepackIgnoresOutside | sanitize_vba.py:98 | Files outside the staging root never reach the new container. |
| Archive.RepackPatched | sanitize_vba.py:92-102 | Overwriting the staged copy of one entry and repacking changes only that entry. Every other entry keeps its content. |
| Transaction.BackupPath | sanitize_vba.py:33 | The backup is written beside the original, under the original's name extended by `.backup`. |
| Transaction.TempPath | sanitize_vba.py:96 | The new container is written beside the original, under the original's name extended by `.temp`, which is never the backup's name. |
| Transaction.Walk | sanitize_vba.py:98-100 | Walking the staging directory yields exactly the plain files inside it, each with its bytes. |
| Transaction.ExistsAfterExtract | sanitize_vba.py:43-49 | After extraction, `os.path.exists` holds for a name below the staging directory exactly when it is an entry or a directory that some entry lies inside. |
| Transaction.Extract | sanitize_vba.py:42-43 | Extraction keeps every existing file. It adds files only inside the staging root, and puts each entry's bytes at its staged path. |
| Transaction.RemoveTree | sanitize_vba.py:122-124 | After removing the staging tree, nothing is inside the root and everything outside is as it was. |
| Transaction.RemoveTreeExtract | sanitize_vba.py:42-43 | Removing the staging tree undoes an extraction exactly. |
| Transaction.Recover | sanitize_vba.py:114-120 | The handler copies the backup over the original path and returns 0. If that copy fails, the exception escapes. No other path changes. The existence test on the backup (line 117) always passes here, because every state before the handler keeps the backup (`Agrees`). |
| Transaction.Attempt | sanitize_vba.py:40-71 | An unreadable container or a failing extraction goes to the handler, which restores or raises. The run ends with "no project" or "nothing to replace" exactly under the conditions stated for `Process`, once the container opens and extracts. A run with no failing step and at least one occurrence reaches the swap. A run that reaches the container write leaves `.temp` as described for `Pack`. |
| Transaction.Process | sanitize_vba.py:47-71 | The run ends with "no project" exactly when nothing exists at the staged project path. It ends with "nothing to replace" exactly when the project is read and holds no occurrence. Both return 0 with the original untouched. When something exists at the project path but the read fails, or it is a directory, the run goes to the handler. |
| Transaction.Commit | sanitize_vba.py:91-93 | A failing write of the patched blob goes to the handler. Otherwise the run continues to the repack. |
| Transaction.Pack | sanitize_vba.py:95-104 | A failing container write leaves a partial `.temp` file and goes to the handler. Otherwise `.temp` holds the original entries with only the project patched. If the removal or the rename then fails, that complete `.temp` stays behind. |
| Transaction.Swap | sanitize_vba.py:106-107 | A failing removal of the original goes to the handler, and `.temp` stays. Otherwise the run continues to the rename. |
| Transaction.Rename | sanitize_vba.py:108-112 | A failing rename goes to the handler, which restores the removed original, and `.temp` stays. Otherwise the original path holds the patched container, `.temp` is gone, and the run returns before − after. |
| Transaction.Guarded | sanitize_vba.py:40-124 | After the backup: the backup stays intact. The staging tree is gone on every exit. Apart from the backup, only the original and `.temp` can change. Every return other than a swap leaves the original as it was. When an exception escapes, the original path holds the original or nothing, never a partial file. "No project" and "nothing to replace" happen exactly under the conditions stated for `Process`. Every other exit that is not a swap goes through the handler, which raises exactly when the restore fails. A container that cannot be opened or extracted goes to the handler. `.temp` is left as described for `Pack`. |
| Transaction.Sanitize | sanitize_vba.py:15-124 | A missing file or a failing backup raises with nothing changed. A failing staging directory raises with only the backup added. Otherwise the backup equals the original. No staging file survives. Nothing outside the original, backup and `.temp` changes. An exception escapes only from the backup, the staging directory or the restore, and then the original path holds the original or nothing, never a partial file. The run ends with "no project" or "nothing to replace" exactly under the conditions stated for `Process`. Every other exit that is not a swap goes through the handler, which raises exactly when the restore fails. A container that cannot be opened or extracted goes to the handler. A run that reaches the container write leaves a partial `.temp` when that write fails, and the complete patched `.temp` when the removal or the rename fails. A swap happens only when no step fails (the backup and the staging directory included), the container has extractable names and holds the project, and the search text occurs. Those conditions together always give a swap. The result is then before − after. |
| Transaction.VerifyReplacement | sanitize_vba.py:143-165 | −1 exactly when reading fails, the file is not a container or it has no `xl/vbaProject.bin`. Otherwise the result is the non-overlapping count in that entry, which is never −1. |
| Transaction.MissingProjectLeavesFile | sanitize_vba.py:47-51 | Without an entry named `xl/vbaProject.bin` or inside a directory of that name, the run returns 0. The file system differs from the input only by the backup. |
| Transaction.NoOccurrenceLeavesFile | sanitize_vba.py:66-71 | Without an occurrence, the run returns 0. The file system differs from the input only by the backup. |
| Transaction.CleanRunSwaps | sanitize_vba.py:15-112 | With no failing step, a container that extracts, holds the project and contains the search text is swapped: the original path holds the patched entries and the result is before − after. |
| Transaction.FailingRestoreRaises | sanitize_vba.py:114-120 | On a container the sanitizer goes on to patch, a failure of any step inside the try block followed by a failing restore lets the exception escape. The backup is kept. |
| Transaction.FailureRestoresOriginal | sanitize_vba.py:114-120 | If any step inside the try block fails and the restore works, the original has its original content, the backup is kept and the result is 0. |
| Transaction.VerifyAfterSwap | sanitize_vba.py:143-161 | After a swap, the checker reports the occurrences left in the patched project. The sanitizer's count plus that number is the count before replacing. |
| Transaction.ScenarioRun | sanitize_vba.py:15-124 | A container holding only "XXfooXXbarXX" as its project: the run returns 3, the project becomes "YfooYbarY", and the checker reports 0. |
| Transaction.ScenarioOutcome | sanitize_vba.py:143-161 | Any swap of that container reports 3 and leaves nothing for the checker to find. |

## Left out

- The ZIP format, deflate and `zipfile` internals (lines 42, 97, 144) belong to a library. A container is the map of its entries.
- The `.xlsm` file being a valid ZIP is a property of the content (`ZipFile` or not), not something parsed.
- Real file-system calls (`shutil.copy2`, `tempfile.mkdtemp`, `os.remove`, `os.rename`, `shutil.rmtree`) are state transitions on the map. Each has one named failure point. A failing copy or write is atomic, except the container write, which leaves an `Incomplete` `.temp` file.
- Transaction.Pack: the container write (lines 97-102) is one failure point. It is taken to fail after `.temp` was created, and leaves an `Incomplete` file. A failure of `zipfile.ZipFile(output_path, 'w')` itself, which writes no `.temp`, is not modelled. `Incomplete` stands for what the `with` block closes on an error: a container holding only the entries written so far. Its contents are not modelled.
- `tempfile.mkdtemp` is modelled by a precondition: the staging root is new and empty, and the original, backup and `.temp` paths lie outside it.
- `shutil.rmtree(..., ignore_errors=True)` is modelled as always succeeding. Its errors are ignored and invisible to the caller.
- Partial extraction when `extractall` fails half-way is not modelled. The failure is taken before any file is staged, and the staging tree is removed afterwards anyway.
- The order of `os.walk` (line 98) does not matter here. Only the set of entries and their contents are claimed.
- Transaction.Attempt: a container with a name that `Archive.CleanName` rejects goes to the except handler. These are directory entries (a trailing `/`), absolute names, and names with an empty, `.` or `..` part. The code differs for some of them. `extractall` (line 43) rewrites such names before writing, and creates directories for directory entries. When every rewritten name is non-empty and none is a directory on the way to another, the extraction succeeds and the run goes on. The `os.walk` repack (lines 98-102) then stores the rewritten names and silently drops the directory entries. That renaming is not modelled, so the model promises nothing about how the code handles such containers. The other cases go to the handler in both the code and the model. A name with nothing left after the rewrite (`.`, `..`, `./..`) makes `extractall` raise. So does a container where one name, rewritten or not, is a directory on the way to another (`a` and `a/b`, `/a` and `a/b`, `./a` and `a/b`), because one of the two paths cannot be created.
- `os.path.join` and `os.path.relpath` use `/`. Windows separators are not modelled.
- Console output, the Windows stdout/stderr re-encoding (lines 9-13), `main` (lines 168-203) and the unused `re` and `Path` imports are not modelled.
- The internal structure of `vbaProject.bin` (OLE and compiled VBA) is not modelled. The blob is opaque bytes.
- An empty search text is excluded by precondition. Python would count `len + 1` matches and insert the replacement everywhere.
- Patcher.PatchBlob: search and replacement are byte sequences. Search or replacement text with code points above 255, which `errors='ignore'` would drop, is not modelled. `Latin1.DecodeEncode` states exactly when such a drop happens, and `Latin1.EncodeDropsOthers` that it is silent.
- Transaction.VerifyReplacement: every exception while opening or reading the container is one boolean `fault`. The exception kinds are not distinguished.

=== FILE: archive.dfy ===
/**
 The container as the sanitizer sees it once the ZIP codec is abstracted
 away: a map from entry name to uncompressed content. Extraction writes each
 entry to `<staging root>/<entry name>`; repacking walks the staging root and
 stores every file under its path relative to the root.

 `RepackStage` is the round trip and `RepackPatched` the frame property: after
 overwriting one staged file, repacking gives the original entries with only
 that entry changed.
 */
module Archive {
  import Bytes

  /** Entry name -> uncompressed content. */
  type Entries = map<string, seq<Bytes.Byte>>

  /** The entry holding the compiled macro project. */
  const VbaProject: string := "xl/vbaProject.bin"

  /** os.path.join(root, rel) with '/' as the separator. */
  function JoinPath(root: string, rel: string): string
  {
    root + "/" + rel
  }

  /** `q` names something strictly inside directory `root`. */
  predicate Under(root: string, q: string)
  {
    |q| > |root| + 1 && q[..|root| + 1] == root + "/"
  }

  /** os.path.relpath(q, root) for a path inside `root`. */
  function RelPath(root: string, q: string): (rel: string)
    requires Under(root, q)
    ensures |rel| > 0 && JoinPath(root, rel) == q
  {
    assert q == q[..|root| + 1] + q[|root| + 1..];
    q[|root| + 1..]
  }

  lemma RelPathOfJoin(root: string, rel: string)
    requires |rel| > 0
    ensures Under(root, JoinPath(root, rel))
    ensures RelPath(root, JoinPath(root, rel)) == rel
  {
    var q := JoinPath(root, rel);
    assert q[..|root| + 1] == root + "/";
    assert q[|root| + 1..] == rel;
  }

  /** The '/'-separated part of `p` that starts at `i` is "." or "..". */
  predicate DotPart(p: string, i: int)
    requires 0 <= i < |p|
  {
    && p[i] == '.'
    && (i + 1 == |p| || p[i + 1] == '/'
        || (p[i + 1] == '.' && (i + 2 == |p| || p[i + 2] == '/')))
  }

  /**
   A name that extraction writes under exactly that relative path: not
   absolute, not a directory entry (no trailing '/'), and made of non-empty
   parts none of which is "." or "..". zipfile rewrites every other name
   before writing it.
   */
  predicate CleanName(p: string)
  {
    && |p| > 0 && p[0] != '/' && p[|p| - 1] != '/'
    && (forall i | 0 < i < |p| :: !(p[i - 1] == '/' && p[i] == '/'))
    && (forall i | 0 <= i < |p| && (i == 0 || p[i - 1] == '/') :: !DotPart(p, i))
  }

  /**
   Entry names that extract to plain files at their own names: every name is
   clean, and no name is a directory on the way to another (extraction cannot
   make one path both a file and a directory).
   */
  predicate Extractable(e: Entries)
  {
    && (forall p | p in e :: CleanName(p))
    && (forall p, q | p in e && q in e :: !Under(p, q))
  }

  /** The staging directory after extracting `e` under `root`. */
  function Stage(root: string, e: Entries): (staged: map<string, seq<Bytes.Byte>>)
    requires Extractable(e)
    ensures forall p | p in e :: Under(root, JoinPath(root, p)) && JoinPath(root, p) in staged
    ensures forall q | q in staged :: Under(root, q) && RelPath(root, q) in e && staged[q] == e[RelPath(root, q)]
  {
    forall p | p in e
      ensures Under(root, JoinPath(root, p)) && RelPath(root, JoinPath(root, p)) == p
    {
      RelPathOfJoin(root, p);
    }
    map p | p in e :: JoinPath(root, p) := e[p]
  }

  /** The entries written when every file inside `root` is stored under its relative path. */
  function Repack(root: string, files: map<string, seq<Bytes.Byte>>): (e: Entries)
    ensures forall q | q in files && Under(root, q) :: RelPath(root, q) in e && e[RelPath(root, q)] == files[q]
    ensures forall p | p in e :: JoinPath(root, p) in files && Under(root, JoinPath(root, p))
  {
    map q | q in files && Under(root, q) :: RelPath(root, q) := files[q]
  }

  /** Repacking what was extracted gives back the same entries with the same contents. */
  lemma RepackStage(root: string, e: Entries)
    requires Extractable(e)
    ensures Repack(root, Stage(root, e)) == e
  {
    var r := Repack(root, Stage(root, e));
    forall p | p in e
      ensures p in r && r[p] == e[p]
    {
      RelPathOfJoin(root, p);
    }
  }

  /** Files outside the staging root are never picked up by a repack. */
  lemma RepackIgnoresOutside(root: string, files: map<string, seq<Bytes.Byte>>, other: map<string, seq<Bytes.Byte>>)
    requires forall q | q in other :: !Under(root, q)
    ensures Repack(root, other + files) == Repack(root, files)
  {
  }

  /** Joining under one root tells different names apart. */
  lemma JoinPathInjective(root: string, p: string, t: string)
    requires |p| > 0 && |t| > 0
    ensures JoinPath(root, p) == JoinPath(root, t) <==> p == t
  {
    RelPathOfJoin(root, p);
    RelPathOfJoin(root, t);
  }

  /** Overwriting an entry's content keeps the names extractable. */
  lemma ExtractableUpdate(e: Entries, t: string, b: seq<Bytes.Byte>)
    requires Extractable(e) && t in e
    ensures Extractable(e[t := b])
  {
    assert e[t := b].Keys == e.Keys;
  }

  /** Overwriting a staged file is staging the entries with that entry overwritten. */
  lemma StagePatched(root: string, e: Entries, t: string, b: seq<Bytes.Byte>)
    requires Extractable(e) && t in e
    ensures Extractable(e[t := b])
    ensures Stage(root, e)[JoinPath(root, t) := b] == Stage(root, e[t := b])
  {
    ExtractableUpdate(e, t, b);
    var lhs := Stage(root, e)[JoinPath(root, t) := b];
    var rhs := Stage(root, e[t := b]);
    StagePatchedCovers(root, e, t, b);
    StagePatchedWithin(root, e, t, b, lhs, rhs);
    SameEntries(rhs, lhs);
  }

  lemma StagePatchedCovers(root: string, e: Entries, t: string, b: seq<Bytes.Byte>)
    requires Extractable(e) && t in e && Extractable(e[t := b])
    ensures var lhs := Stage(root, e)[JoinPath(root, t) := b];
            forall q | q in Stage(root, e[t := b]) :: q in lhs && lhs[q] == Stage(root, e[t := b])[q]
  {
    var lhs := Stage(root, e)[JoinPath(root, t) := b];
    var rhs := Stage(root, e[t := b]);
    forall q | q in rhs
      ensures q in lhs && lhs[q] == rhs[q]
    {
      var p := RelPath(root, q);
      JoinPathInjective(root, p, t);
    }
  }

  lemma StagePatchedWithin(root: string, e: Entries, t: string, b: seq<Bytes.Byte>, lhs: map<string, seq<Bytes.Byte>>, rhs: map<string, seq<Bytes.Byte>>)
    requires Extractable(e) && t in e && Extractable(e[t := b])
    requires lhs == Stage(root, e)[JoinPath(root, t) := b] && rhs == Stage(root, e[t := b])
    ensures forall q | q in lhs :: q in rhs
  {
    forall q | q in lhs
      ensures q in rhs
    {
      if q != JoinPath(root, t) {
        assert q in Stage(root, e);
      }
    }
  }

  /**
   Overwriting the staged copy of entry `t` and repacking changes entry `t`
   to the new bytes and keeps every other entry, with its content, as it was.
   */
  lemma RepackPatched(root: string, e: Entries, t: string, b: seq<Bytes.Byte>)
    requires Extractable(e) && t in e
    ensures Repack(root, Stage(root, e)[JoinPath(root, t) := b]) == e[t := b]
  {
    var e' := e[t := b];
    StagePatched(root, e, t, b);
    RepackStage(root, e');
    assert Stage(root, e)[JoinPath(root, t) := b] == Stage(root, e');
  }

  /** Being inside a directory is transitive. */
  lemma UnderTransitive(a: string, b: string, c: string)
    ensures Under(a, b) && Under(b, c) ==> Under(a, c)
  {
    if Under(a, b) && Under(b, c) {
      assert c[..|a| + 1] == c[..|b| + 1][..|a| + 1];
      assert (b + "/")[..|a| + 1] == b[..|a| + 1];
    }
  }

  /** Below a common root, one staged path lies inside another exactly when the names do. */
  lemma UnderJoin(root: string, a: string, b: string)
    ensures Under(JoinPath(root, a), JoinPath(root, b)) <==> Under(a, b)
  {
    var x, y := JoinPath(root, a), JoinPath(root, b);
    var k := |root| + 1;
    if |b| > |a| + 1 {
      assert y[..|x| + 1] == (root + "/") + b[..|a| + 1];
      assert x + "/" == (root + "/") + (a + "/");
      if y[..|x| + 1] == x + "/" {
        assert b[..|a| + 1] == y[..|x| + 1][k..];
      }
    }
  }

  /** Overwriting the only entry of a one-entry container. */
  lemma OverwriteSingleton(k: string, a: seq<Bytes.Byte>, b: seq<Bytes.Byte>)
    ensures map[k := a][k := b] == map[k := b]
  {
  }

  /** Two file maps with the same names and the same contents are equal. */
  lemma SameEntries(a: map<string, seq<Bytes.Byte>>, b: map<string, seq<Bytes.Byte>>)
    requires forall q | q in a :: q in b && a[q] == b[q]
    requires forall q | q in b :: q in a
    ensures a == b
  {
    assert a.Keys == b.Keys;
  }
}

=== FILE: bytes.dfy ===
/** Bytes as the sanitizer reads and writes them. */
module Bytes {

  /** One byte, 0 to 255. */
  newtype Byte = x: int | 0 <= x < 256
}

=== FILE: latin1.dfy ===
/**
 The latin-1 codec as the sanitizer uses it: every byte decodes to the code
 point of the same value, and encoding with `errors='ignore'` writes each code
 point below 256 as one byte and silently drops every other one.

 The point of the module is that the detour through text is harmless for
 bytes: `EncodeDecode` is the round trip, and `CountDecode`/`ReplaceDecode`
 show that counting and replacing on the decoded text is counting and
 replacing on the bytes.
 */
module Latin1 {
  import Search
  import Bytes

  /** The code points latin-1 can represent. */
  predicate IsLatin1(c: char)
  {
    c as int < 256
  }

  /** bytes.decode('latin-1'): one code point per byte, of the same value. */
  function Decode(bs: seq<Bytes.Byte>): (s: string)
    ensures |s| == |bs|
    ensures forall i | 0 <= i < |bs| :: IsLatin1(s[i]) && s[i] as int == bs[i] as int
  {
    seq(|bs|, i requires 0 <= i < |bs| => bs[i] as int as char)
  }

  /**
   str.encode('latin-1', errors='ignore'): code points above 255 are dropped.
   Nothing is lost exactly when every code point is latin-1, and then each
   code point becomes the byte of the same value, in order.
   */
  function Encode(s: string): (bs: seq<Bytes.Byte>)
    ensures |bs| <= |s|
    ensures |bs| == |s| <==> AllLatin1(s)
    ensures AllLatin1(s) ==> forall i | 0 <= i < |s| :: bs[i] as int == s[i] as int
  {
    if |s| == 0 then []
    else
      AllLatin1Tail(s);
      if IsLatin1(s[0]) then [s[0] as int as Bytes.Byte] + Encode(s[1..])
      else Encode(s[1..])
  }

  /** Encoding works code point by code point: it distributes over concatenation. */
  lemma {:induction false} EncodeConcat(a: string, b: string)
    ensures Encode(a + b) == Encode(a) + Encode(b)
    decreases |a|
  {
    if |a| > 0 {
      assert (a + b)[0] == a[0];
      assert (a + b)[1..] == a[1..] + b;
      EncodeConcat(a[1..], b);
    } else {
      assert a + b == b;
    }
  }

  /**
   A code point above 255 is silently dropped: encoding a text with it is
   encoding the text without it.
   */
  lemma EncodeDropsOthers(a: string, c: char, b: string)
    requires !IsLatin1(c)
    ensures Encode(a + [c] + b) == Encode(a) + Encode(b)
  {
    var one: string := [c];
    assert one[0] == c && one[1..] == [];
    assert Encode(one) == [];
    EncodeConcat(a, one);
    EncodeConcat(a + one, b);
  }

  lemma DecodeSlice(bs: seq<Bytes.Byte>, i: int, j: int)
    requires 0 <= i <= j <= |bs|
    ensures Decode(bs)[i..j] == Decode(bs[i..j])
  {
  }

  lemma DecodeDrop(bs: seq<Bytes.Byte>, k: int)
    requires 0 <= k <= |bs|
    ensures Decode(bs)[k..] == Decode(bs[k..])
  {
  }

  lemma DecodeConcat(a: seq<Bytes.Byte>, b: seq<Bytes.Byte>)
    ensures Decode(a + b) == Decode(a) + Decode(b)
  {
  }

  /** Decoding then encoding gives back every byte sequence unchanged. */
  lemma {:induction false} EncodeDecode(bs: seq<Bytes.Byte>)
    ensures Encode(Decode(bs)) == bs
    decreases |bs|
  {
    if |bs| > 0 {
      var s := Decode(bs);
      DecodeDrop(bs, 1);
      EncodeDecode(bs[1..]);
      assert IsLatin1(s[0]);
      assert Encode(s) == [s[0] as int as Bytes.Byte] + Encode(s[1..]);
      assert (s[0] as int as Bytes.Byte) == bs[0];
      assert bs == [bs[0]] + bs[1..];
    }
  }

  /** Encoding then decoding gives back exactly the texts made of latin-1 code points. */
  lemma {:induction false} DecodeEncode(s: string)
    ensures Decode(Encode(s)) == s <==> AllLatin1(s)
    decreases |s|
  {
    if |s| > 0 {
      var t := Encode(s[1..]);
      DecodeEncode(s[1..]);
      AllLatin1Tail(s);
      if IsLatin1(s[0]) {
        var b := s[0] as int as Bytes.Byte;
        assert Encode(s) == [b] + t;
        DecodeConcat([b], t);
        assert Decode([b]) == [s[0]];
        var d := Decode(Encode(s));
        assert d == [s[0]] + Decode(t);
        assert d[1..] == Decode(t);
        assert s == [s[0]] + s[1..];
        if Decode(t) == s[1..] {
          assert d == s;
        }
      } else {
        assert Encode(s) == t;
        assert |Decode(Encode(s))| < |s|;
      }
    }
  }

  predicate AllLatin1(s: string)
  {
    forall i | 0 <= i < |s| :: IsLatin1(s[i])
  }

  lemma AllLatin1Tail(s: string)
    requires |s| > 0
    ensures AllLatin1(s) <==> IsLatin1(s[0]) && AllLatin1(s[1..])
  {
    if IsLatin1(s[0]) && AllLatin1(s[1..]) {
      forall i | 0 <= i < |s|
        ensures IsLatin1(s[i])
      {
        if i > 0 {
          assert s[i] == s[1..][i - 1];
        }
      }
    }
  }

  /** Different byte sequences decode to different texts. */
  lemma DecodeInjective(a: seq<Bytes.Byte>, b: seq<Bytes.Byte>)
    ensures Decode(a) == Decode(b) <==> a == b
  {
    if Decode(a) == Decode(b) {
      EncodeDecode(a);
      EncodeDecode(b);
    }
  }

  /** The prefix test Count and Replace make gives the same answer on bytes and on their decoding. */
  lemma PrefixTest(h: seq<Bytes.Byte>, n: seq<Bytes.Byte>)
    requires |n| <= |h|
    ensures |Decode(h)| == |h| && |Decode(n)| == |n|
    ensures (Decode(h)[..|n|] == Decode(n)) <==> (h[..|n|] == n)
  {
    DecodeSlice(h, 0, |n|);
    assert h[0..|n|] == h[..|n|];
    DecodeInjective(h[..|n|], n);
  }

  /** Counting in the decoded text counts the same occurrences as counting in the bytes. */
  lemma {:induction false} CountDecode(h: seq<Bytes.Byte>, n: seq<Bytes.Byte>)
    requires |n| > 0
    ensures Search.Count(Decode(h), Decode(n)) == Search.Count(h, n)
    decreases |h|
  {
    var th, tn := Decode(h), Decode(n);
    if |h| >= |n| {
      PrefixTest(h, n);
      if h[..|n|] == n {
        DecodeDrop(h, |n|);
        CountDecode(h[|n|..], n);
        assert Search.Count(th, tn) == 1 + Search.Count(th[|tn|..], tn);
      } else {
        DecodeDrop(h, 1);
        CountDecode(h[1..], n);
        assert Search.Count(th, tn) == Search.Count(th[1..], tn);
      }
    }
  }

  /** Replacing in the decoded text is the decoding of replacing in the bytes. */
  lemma {:induction false} ReplaceDecode(h: seq<Bytes.Byte>, n: seq<Bytes.Byte>, r: seq<Bytes.Byte>)
    requires |n| > 0
    ensures Search.Replace(Decode(h), Decode(n), Decode(r)) == Decode(Search.Replace(h, n, r))
    decreases |h|
  {
    var th, tn, tr := Decode(h), Decode(n), Decode(r);
    if |h| >= |n| {
      PrefixTest(h, n);
      if h[..|n|] == n {
        DecodeDrop(h, |n|);
        ReplaceDecode(h[|n|..], n, r);
        DecodeConcat(r, Search.Replace(h[|n|..], n, r));
        assert Search.Replace(th, tn, tr) == tr + Search.Replace(th[|tn|..], tn, tr);
      } else {
        DecodeDrop(h, 1);
        ReplaceDecode(h[1..], n, r);
        DecodeConcat([h[0]], Search.Replace(h[1..], n, r));
        assert Search.Replace(th, tn, tr) == [th[0]] + Search.Replace(th[1..], tn, tr);
        assert Decode([h[0]]) == [th[0]];
      }
    }
  }
}

=== FILE: patcher.dfy ===
/**
 The blob patcher: what the sanitizer does with the bytes of
 `xl/vbaProject.bin` once it has read them. The blob is decoded as latin-1,
 the search text is counted, replaced and counted again in the decoded text,
 and the result is encoded back to bytes.

 The contract of `PatchBlob` states the outcome on the bytes themselves;
 the latin-1 lemmas are what make the text detour invisible.
 */
module Patcher {
  import Search
  import Bytes
  import Latin1

  /**
   The blob-level outcome: either the search text does not occur (early
   return), or the counts before and after replacing and the patched bytes.
   */
  datatype Patch = Unmatched | Patched(before: nat, after: nat, bytes: seq<Bytes.Byte>)
  {
    /** The number the sanitizer reports as replaced: count before minus count after. */
    function Reported(): int
      requires Patched?
    {
      before - after
    }
  }

  function PatchBlob(blob: seq<Bytes.Byte>, search: seq<Bytes.Byte>, repl: seq<Bytes.Byte>): (p: Patch)
    requires |search| > 0
    ensures p.Unmatched? <==> Search.NoMatch(blob, search)
    ensures p.Patched? ==> p.before == Search.Count(blob, search) > 0
    ensures p.Patched? ==> p.bytes == Search.Replace(blob, search, repl)
    ensures p.Patched? ==> p.after == Search.Count(p.bytes, search)
    ensures p.Patched? ==> |p.bytes| == |blob| + p.before * (|repl| - |search|)
  {
    var text := Latin1.Decode(blob);
    var needle := Latin1.Decode(search);
    Latin1.CountDecode(blob, search);
    Search.CountZeroIffNoMatch(blob, search);
    var before := Search.Count(text, needle);
    if before == 0 then
      Unmatched
    else
      var replaced := Search.Replace(text, needle, Latin1.Decode(repl));
      var patched := Search.Replace(blob, search, repl);
      Latin1.ReplaceDecode(blob, search, repl);
      Latin1.EncodeDecode(patched);
      Latin1.CountDecode(patched, search);
      Search.ReplaceLength(blob, search, repl);
      Patched(before, Search.Count(replaced, needle), Latin1.Encode(replaced))
  }

  /**
   The reported number never exceeds the occurrences replaced, and equals it
   exactly when the patched blob holds no occurrence any more.
   */
  lemma ReportedBound(blob: seq<Bytes.Byte>, search: seq<Bytes.Byte>, repl: seq<Bytes.Byte>)
    requires |search| > 0
    requires PatchBlob(blob, search, repl).Patched?
    ensures PatchBlob(blob, search, repl).Reported() <= Search.Count(blob, search)
    ensures PatchBlob(blob, search, repl).Reported() == Search.Count(blob, search)
        <==> Search.NoMatch(Search.Replace(blob, search, repl), search)
  {
    Search.CountZeroIffNoMatch(Search.Replace(blob, search, repl), search);
  }

  /**
   Replacing can create new occurrences across the seams: in "abb", replacing
   "ab" by "a" gives "ab" again, so one occurrence was replaced but zero are
   reported.
   */
  lemma RematchAcrossSeam()
    ensures PatchBlob([0x61, 0x62, 0x62], [0x61, 0x62], [0x61]) == Patched(1, 1, [0x61, 0x62])
  {
    var blob: seq<Bytes.Byte> := [0x61, 0x62, 0x62];
    var search: seq<Bytes.Byte> := [0x61, 0x62];
    assert blob[..2] == search;
    assert blob[2..] == [0x62];
    assert Search.Count(blob, search) == 1;
    assert Search.Replace(blob, search, [0x61]) == [0x61, 0x62];
    var out: seq<Bytes.Byte> := [0x61, 0x62];
    assert out[..2] == search;
    assert out[2..] == [];
    assert Search.Count(out, search) == 1;
  }

  /**
   A replacement that contains the search text makes the reported number
   negative: "a" replaced by "aa" in "a" reports 1 - 2.
   */
  lemma ReportedCanBeNegative()
    ensures PatchBlob([0x61], [0x61], [0x61, 0x61]).Reported() == -1
  {
    var blob: seq<Bytes.Byte> := [0x61];
    assert blob[..1] == [0x61];
    assert blob[1..] == [];
    assert Search.Count(blob, [0x61]) == 1;
    assert Search.Replace(blob, [0x61], [0x61, 0x61]) == [0x61, 0x61];
    var out: seq<Bytes.Byte> := [0x61, 0x61];
    assert out[..1] == [0x61];
    assert out[1..] == [0x61];
    assert out[1..][..1] == [0x61];
    assert out[1..][1..] == [];
    assert Search.Count(out[1..], [0x61]) == 1;
    assert Search.Count(out, [0x61]) == 2;
  }

  /** "XXfooXXbarXX" with "XX" replaced by "Y" becomes "YfooYbarY": three replaced, none left. */
  lemma ScenarioPatch()
    ensures PatchBlob(ScenarioBlob, ScenarioSearch, ScenarioRepl)
         == Patched(3, 0, ScenarioPatched)
  {
    ScenarioReplace();
    ScenarioCount();
    ScenarioPatchedCount();
  }

  /** "YfooYbarY" holds no "XX". */
  lemma ScenarioPatchedCount()
    ensures Search.Count(ScenarioPatched, ScenarioSearch) == 0
  {
    AbsentFirstByte(ScenarioPatched, ScenarioSearch);
    Search.CountZeroIffNoMatch(ScenarioPatched, ScenarioSearch);
  }

  /** A needle whose first byte never occurs has no occurrence. */
  lemma AbsentFirstByte(h: seq<Bytes.Byte>, n: seq<Bytes.Byte>)
    requires |n| > 0 && n[0] !in h
    ensures Search.NoMatch(h, n)
  {
    forall i | 0 <= i < |h| + 1
      ensures !Search.MatchAt(h, n, i)
    {
      if 0 <= i && i + |n| <= |h| {
        assert h[i..i + |n|][0] == h[i];
      }
    }
  }

  lemma ScenarioReplace()
    ensures Search.Replace(ScenarioBlob, ScenarioSearch, ScenarioRepl) == ScenarioPatched
  {
    var n, r := ScenarioSearch, ScenarioRepl;
    assert ScenarioBlob == n + (Foo + (n + (Bar + (n + []))));
    assert ScenarioPatched == r + (Foo + (r + (Bar + (r + []))));
    ReplaceHit(n + [], n, r);
    assert (n + [])[|n|..] == [];
    ReplaceSkipWord(Bar, n + [], n, r);
    ReplaceHit(n + (Bar + (n + [])), n, r);
    assert (n + (Bar + (n + [])))[|n|..] == Bar + (n + []);
    ReplaceSkipWord(Foo, n + (Bar + (n + [])), n, r);
    ReplaceHit(n + (Foo + (n + (Bar + (n + [])))), n, r);
    assert (n + (Foo + (n + (Bar + (n + [])))))[|n|..] == Foo + (n + (Bar + (n + [])));
  }

  /** One scanning step of Replace over a sequence that does not start with the needle. */
  lemma ReplaceSkip(h: seq<Bytes.Byte>, n: seq<Bytes.Byte>, r: seq<Bytes.Byte>)
    requires |n| > 0 && |h| > 0 && h[0] != n[0]
    ensures Search.Replace(h, n, r) == [h[0]] + Search.Replace(h[1..], n, r)
  {
    if |h| >= |n| {
      assert h[..|n|][0] != n[0];
    }
  }

  /** One scanning step of Replace over a sequence that starts with the needle. */
  lemma ReplaceHit(h: seq<Bytes.Byte>, n: seq<Bytes.Byte>, r: seq<Bytes.Byte>)
    requires |n| > 0 && |h| >= |n| && h[..|n|] == n
    ensures Search.Replace(h, n, r) == r + Search.Replace(h[|n|..], n, r)
  {
  }

  /** Replace copies a word without the needle's first byte through unchanged. */
  lemma {:induction false} ReplaceSkipWord(w: seq<Bytes.Byte>, rest: seq<Bytes.Byte>, n: seq<Bytes.Byte>, r: seq<Bytes.Byte>)
    requires |n| > 0 && n[0] !in w
    ensures Search.Replace(w + rest, n, r) == w + Search.Replace(rest, n, r)
    decreases |w|
  {
    if |w| > 0 {
      ReplaceSkip(w + rest, n, r);
      assert (w + rest)[1..] == w[1..] + rest;
      ReplaceSkipWord(w[1..], rest, n, r);
      assert w == [w[0]] + w[1..];
    } else {
      assert w + rest == rest;
    }
  }

  /** One scanning step of Count over a sequence that does not start with the needle. */
  lemma CountSkip(h: seq<Bytes.Byte>, n: seq<Bytes.Byte>)
    requires |n| > 0 && |h| > 0 && h[0] != n[0]
    ensures Search.Count(h, n) == Search.Count(h[1..], n)
  {
    if |h| >= |n| {
      assert h[..|n|][0] != n[0];
    }
  }

  /** Count skips a word without the needle's first byte. */
  lemma {:induction false} CountSkipWord(w: seq<Bytes.Byte>, rest: seq<Bytes.Byte>, n: seq<Bytes.Byte>)
    requires |n| > 0 && n[0] !in w
    ensures Search.Count(w + rest, n) == Search.Count(rest, n)
    decreases |w|
  {
    if |w| > 0 {
      CountSkip(w + rest, n);
      assert (w + rest)[1..] == w[1..] + rest;
      CountSkipWord(w[1..], rest, n);
    } else {
      assert w + rest == rest;
    }
  }

  /** Count over a sequence that starts with the needle. */
  lemma CountHit(rest: seq<Bytes.Byte>, n: seq<Bytes.Byte>)
    requires |n| > 0
    ensures Search.Count(n + rest, n) == 1 + Search.Count(rest, n)
  {
    assert (n + rest)[..|n|] == n;
    assert (n + rest)[|n|..] == rest;
  }

  lemma ScenarioCount()
    ensures Search.Count(ScenarioBlob, ScenarioSearch) == 3
  {
    var n := ScenarioSearch;
    assert ScenarioBlob == n + (Foo + (n + (Bar + (n + []))));
    CountHit([], n);
    assert n + [] == n;
    CountSkipWord(Bar, n + [], n);
    CountHit(Bar + (n + []), n);
    CountSkipWord(Foo, n + (Bar + (n + [])), n);
    CountHit(Foo + (n + (Bar + (n + []))), n);
  }

  /** The bytes of "foo". */
  const Foo: seq<Bytes.Byte> := [0x66, 0x6f, 0x6f]
  /** The bytes of "bar". */
  const Bar: seq<Bytes.Byte> := [0x62, 0x61, 0x72]
  /** The bytes of "XX". */
  const ScenarioSearch: seq<Bytes.Byte> := [0x58, 0x58]
  /** The bytes of "Y". */
  const ScenarioRepl: seq<Bytes.Byte> := [0x59]
  /** The bytes of "XXfooXXbarXX". */
  const ScenarioBlob: seq<Bytes.Byte> := ScenarioSearch + Foo + ScenarioSearch + Bar + ScenarioSearch
  /** The bytes of "YfooYbarY". */
  const ScenarioPatched: seq<Bytes.Byte> := ScenarioRepl + Foo + ScenarioRepl + Bar + ScenarioRepl
}

=== FILE: search.dfy ===
/**
 Literal, non-overlapping, left-to-right substring counting and replacement
 over arbitrary sequences (the semantics of Python's `str.count` and
 `str.replace` with a non-empty needle).

 `Count`, `Replace` and `Split` are the executable definitions. Their
 declarative partner is `IsLeftmostSplit`: the unique way of cutting the
 haystack into pieces separated by occurrences of the needle such that each
 occurrence is the leftmost one still available. `LeftmostSplitCharacterizes`
 connects the two.
 */
module Search {

  /** `n` occurs in `h` starting at index `i`. */
  predicate MatchAt<T(==)>(h: seq<T>, n: seq<T>, i: int)
  {
    0 <= i && i + |n| <= |h| && h[i..i + |n|] == n
  }

  /** No occurrence of `n` starts in `s` before index `k`. */
  predicate NoMatchBefore<T(==)>(s: seq<T>, n: seq<T>, k: int)
  {
    forall i | 0 <= i < k :: !MatchAt(s, n, i)
  }

  /** No occurrence of `n` anywhere in `s`. */
  predicate NoMatch<T(==)>(s: seq<T>, n: seq<T>)
  {
    NoMatchBefore(s, n, |s| + 1)
  }

  /** Number of non-overlapping occurrences of `n` in `h`, scanning left to right. */
  function Count<T(==)>(h: seq<T>, n: seq<T>): nat
    requires |n| > 0
    decreases |h|
  {
    if |h| < |n| then 0
    else if h[..|n|] == n then 1 + Count(h[|n|..], n)
    else Count(h[1..], n)
  }

  /** `h` with every occurrence counted by `Count` replaced by `r`. */
  function Replace<T(==)>(h: seq<T>, n: seq<T>, r: seq<T>): seq<T>
    requires |n| > 0
    decreases |h|
  {
    if |h| < |n| then h
    else if h[..|n|] == n then r + Replace(h[|n|..], n, r)
    else [h[0]] + Replace(h[1..], n, r)
  }

  /** The pieces of `h` between the occurrences `Count` finds. */
  function Split<T(==)>(h: seq<T>, n: seq<T>): (pieces: seq<seq<T>>)
    requires |n| > 0
    ensures |pieces| > 0
    decreases |h|
  {
    if |h| < |n| then [h]
    else if h[..|n|] == n then [[]] + Split(h[|n|..], n)
    else
      var rest := Split(h[1..], n);
      [[h[0]] + rest[0]] + rest[1..]
  }

  /** The pieces glued back together with `sep` between consecutive ones. */
  function Join<T>(pieces: seq<seq<T>>, sep: seq<T>): seq<T>
    requires |pieces| > 0
    decreases |pieces|
  {
    if |pieces| == 1 then pieces[0]
    else pieces[0] + sep + Join(pieces[1..], sep)
  }

  /**
   `pieces` cuts `h` at occurrences of `n`, each cut at the leftmost occurrence
   that starts at or after the end of the previous one, and the last piece
   holds no occurrence at all.
   */
  predicate IsLeftmostSplit<T(==)>(h: seq<T>, n: seq<T>, pieces: seq<seq<T>>)
  {
    && |pieces| > 0
    && Join(pieces, n) == h
    && (forall k | 0 <= k < |pieces| - 1 :: NoMatchBefore(pieces[k] + n, n, |pieces[k]|))
    && NoMatch(pieces[|pieces| - 1], n)
  }

  lemma {:induction false} JoinPrepend<T>(x: T, pieces: seq<seq<T>>, sep: seq<T>)
    requires |pieces| > 0
    ensures Join([[x] + pieces[0]] + pieces[1..], sep) == [x] + Join(pieces, sep)
  {
    var p' := [[x] + pieces[0]] + pieces[1..];
    if |pieces| > 1 {
      assert p'[1..] == pieces[1..];
    }
  }

  lemma {:induction false} SplitIsLeftmost<T>(h: seq<T>, n: seq<T>)
    requires |n| > 0
    ensures IsLeftmostSplit(h, n, Split(h, n))
    decreases |h|
  {
    var pieces := Split(h, n);
    if |h| < |n| {
      assert pieces == [h];
    } else if h[..|n|] == n {
      var tail := h[|n|..];
      SplitIsLeftmost(tail, n);
      var rest := Split(tail, n);
      assert pieces == [[]] + rest;
      assert pieces[1..] == rest;
      assert Join(pieces, n) == [] + n + Join(rest, n);
      assert h == n + tail;
      forall k | 0 <= k < |pieces| - 1
        ensures NoMatchBefore(pieces[k] + n, n, |pieces[k]|)
      {
        if k > 0 {
          assert pieces[k] == rest[k - 1];
        }
      }
    } else {
      SplitIsLeftmost(h[1..], n);
      assert h == [h[0]] + h[1..];
      assert !MatchAt(h, n, 0);
      PrependKeepsLeftmost(h[0], h[1..], n, Split(h[1..], n));
    }
  }

  /** Putting a non-matching element in front extends the first piece of a leftmost split. */
  lemma PrependKeepsLeftmost<T>(x: T, t: seq<T>, n: seq<T>, rest: seq<seq<T>>)
    requires |n| > 0
    requires IsLeftmostSplit(t, n, rest)
    requires !MatchAt([x] + t, n, 0)
    ensures IsLeftmostSplit([x] + t, n, [[x] + rest[0]] + rest[1..])
  {
    var pieces := [[x] + rest[0]] + rest[1..];
    var first := [x] + rest[0];
    JoinPrepend(x, rest, n);
    if |rest| == 1 {
      assert pieces == [first];
      assert first == [x] + t;
      PrependKeepsNoMatch(x, rest[0], n, |rest[0]| + 1);
    } else {
      assert t == rest[0] + n + Join(rest[1..], n);
      assert ([x] + t)[..|n|] == (first + n)[..|n|];
      assert [x] + (rest[0] + n) == first + n;
      PrependKeepsNoMatch(x, rest[0] + n, n, |rest[0]|);
      forall k | 0 <= k < |pieces| - 1
        ensures NoMatchBefore(pieces[k] + n, n, |pieces[k]|)
      {
        if k > 0 {
          assert pieces[k] == rest[k];
        }
      }
      assert pieces[|pieces| - 1] == rest[|rest| - 1];
    }
  }

  lemma PrependKeepsNoMatch<T>(x: T, s: seq<T>, n: seq<T>, k: int)
    requires NoMatchBefore(s, n, k)
    requires !MatchAt([x] + s, n, 0)
    ensures NoMatchBefore([x] + s, n, k + 1)
  {
    forall i | 0 <= i < k + 1
      ensures !MatchAt([x] + s, n, i)
    {
      if i > 0 {
        MatchShift([x] + s, n, i);
        assert ([x] + s)[1..] == s;
      }
    }
  }

  /** Any two leftmost splits of the same haystack coincide. */
  lemma {:induction false} LeftmostUnique<T>(h: seq<T>, n: seq<T>, p: seq<seq<T>>, q: seq<seq<T>>)
    requires |n| > 0
    requires IsLeftmostSplit(h, n, p) && IsLeftmostSplit(h, n, q)
    ensures p == q
    decreases |h|
  {
    if |p| == 1 && |q| == 1 {
    } else if |p| == 1 {
      FirstCutIsMatch(h, n, q);
      assert false;
    } else if |q| == 1 {
      FirstCutIsMatch(h, n, p);
      assert false;
    } else {
      var jp := Join(p[1..], n);
      var jq := Join(q[1..], n);
      assert h == p[0] + n + jp;
      assert h == q[0] + n + jq;
      if |p[0]| < |q[0]| {
        FirstCutIsLeftmost(h, n, p[0], jp, q[0], jq);
        assert false;
      } else if |q[0]| < |p[0]| {
        FirstCutIsLeftmost(h, n, q[0], jq, p[0], jp);
        assert false;
      }
      assert p[0] == h[..|p[0]|] == q[0];
      assert jp == h[|p[0]| + |n|..] == jq;
      TailIsLeftmost(h, n, p);
      TailIsLeftmost(h, n, q);
      LeftmostUnique(jp, n, p[1..], q[1..]);
      assert p == [p[0]] + p[1..];
      assert q == [q[0]] + q[1..];
    }
  }

  /** The first cut of a split with more than one piece sits on an occurrence. */
  lemma FirstCutIsMatch<T>(h: seq<T>, n: seq<T>, q: seq<seq<T>>)
    requires |q| > 1 && Join(q, n) == h
    ensures MatchAt(h, n, |q[0]|)
  {
    assert h == q[0] + n + Join(q[1..], n);
    assert h[|q[0]|..|q[0]| + |n|] == n;
  }

  /** If the first cut of one split comes earlier, the other split's first piece holds a match. */
  lemma FirstCutIsLeftmost<T>(h: seq<T>, n: seq<T>, a: seq<T>, ja: seq<T>, b: seq<T>, jb: seq<T>)
    requires h == a + n + ja && h == b + n + jb
    requires |a| < |b|
    ensures MatchAt(b + n, n, |a|)
  {
    assert h[|a|..|a| + |n|] == n;
    assert (b + n)[|a|..|a| + |n|] == h[|a|..|a| + |n|];
  }

  lemma TailIsLeftmost<T>(h: seq<T>, n: seq<T>, p: seq<seq<T>>)
    requires |p| > 1 && IsLeftmostSplit(h, n, p)
    ensures IsLeftmostSplit(Join(p[1..], n), n, p[1..])
  {
    forall k | 0 <= k < |p[1..]| - 1
      ensures NoMatchBefore(p[1..][k] + n, n, |p[1..][k]|)
    {
      assert p[1..][k] == p[k + 1];
    }
  }

  lemma {:induction false} CountIsCuts<T>(h: seq<T>, n: seq<T>)
    requires |n| > 0
    ensures Count(h, n) == |Split(h, n)| - 1
    decreases |h|
  {
    if |h| < |n| {
    } else if h[..|n|] == n {
      CountIsCuts(h[|n|..], n);
    } else {
      CountIsCuts(h[1..], n);
    }
  }

  lemma {:induction false} ReplaceIsJoin<T>(h: seq<T>, n: seq<T>, r: seq<T>)
    requires |n| > 0
    ensures Replace(h, n, r) == Join(Split(h, n), r)
    decreases |h|
  {
    var pieces := Split(h, n);
    if |h| < |n| {
    } else if h[..|n|] == n {
      ReplaceIsJoin(h[|n|..], n, r);
      assert pieces[1..] == Split(h[|n|..], n);
    } else {
      ReplaceIsJoin(h[1..], n, r);
      JoinPrepend(h[0], Split(h[1..], n), r);
    }
  }

  /**
   Count and Replace are what the unique leftmost split says: as many
   occurrences as there are cuts, and the pieces glued back with `r`.
   */
  lemma LeftmostSplitCharacterizes<T>(h: seq<T>, n: seq<T>, r: seq<T>, pieces: seq<seq<T>>)
    requires |n| > 0
    requires IsLeftmostSplit(h, n, pieces)
    ensures Count(h, n) == |pieces| - 1
    ensures Replace(h, n, r) == Join(pieces, r)
  {
    SplitIsLeftmost(h, n);
    LeftmostUnique(h, n, pieces, Split(h, n));
    CountIsCuts(h, n);
    ReplaceIsJoin(h, n, r);
  }

  /** Splitting at the needle and joining with the needle restores the haystack. */
  lemma SplitJoinRoundTrip<T>(h: seq<T>, n: seq<T>)
    requires |n| > 0
    ensures Join(Split(h, n), n) == h
    ensures Replace(h, n, n) == h
  {
    SplitIsLeftmost(h, n);
    ReplaceIsJoin(h, n, n);
  }

  /** One more occurrence adds one more step of `d`. */
  lemma Distribute(c: int, d: int)
    ensures (1 + c) * d == d + c * d
  {
  }

  /** Each replaced occurrence changes the length by |r| - |n|. */
  lemma {:induction false} ReplaceLength<T>(h: seq<T>, n: seq<T>, r: seq<T>)
    requires |n| > 0
    ensures |Replace(h, n, r)| == |h| + Count(h, n) * (|r| - |n|)
    decreases |h|
  {
    if |h| < |n| {
    } else if h[..|n|] == n {
      var t := h[|n|..];
      ReplaceLength(t, n, r);
      var c, d := Count(t, n), |r| - |n|;
      assert Count(h, n) == 1 + c;
      assert |Replace(h, n, r)| == |r| + |Replace(t, n, r)|;
      assert |t| == |h| - |n|;
      Distribute(c, d);
    } else {
      ReplaceLength(h[1..], n, r);
      assert Count(h, n) == Count(h[1..], n);
      assert |Replace(h, n, r)| == 1 + |Replace(h[1..], n, r)|;
    }
  }

  /** Counted occurrences do not overlap, so they fit in the haystack. */
  lemma {:induction false} CountBound<T>(h: seq<T>, n: seq<T>)
    requires |n| > 0
    ensures Count(h, n) * |n| <= |h|
    decreases |h|
  {
    if |h| < |n| {
    } else if h[..|n|] == n {
      var t := h[|n|..];
      CountBound(t, n);
      var c := Count(t, n);
      assert Count(h, n) == 1 + c;
      assert |t| == |h| - |n|;
      Distribute(c, |n|);
    } else {
      CountBound(h[1..], n);
      assert Count(h, n) == Count(h[1..], n);
    }
  }

  /** Dropping the first element shifts every occurrence one place to the left. */
  lemma MatchShift<T>(h: seq<T>, n: seq<T>, i: int)
    requires |h| > 0 && i >= 1
    ensures MatchAt(h, n, i) <==> MatchAt(h[1..], n, i - 1)
  {
    if i + |n| <= |h| {
      var a, b := h[i..i + |n|], h[1..][i - 1..i - 1 + |n|];
      assert |a| == |b|;
      forall k | 0 <= k < |a|
        ensures a[k] == b[k]
      {
        assert a[k] == h[i + k];
        assert b[k] == h[1..][i - 1 + k];
      }
      assert a == b;
    }
  }

  /** The count is zero exactly when the needle occurs nowhere. */
  lemma {:induction false} CountZeroIffNoMatch<T>(h: seq<T>, n: seq<T>)
    requires |n| > 0
    ensures Count(h, n) == 0 <==> NoMatch(h, n)
    decreases |h|
  {
    if |h| < |n| {
      forall i | 0 <= i < |h| + 1
        ensures !MatchAt(h, n, i)
      {
      }
    } else if h[..|n|] == n {
      assert MatchAt(h, n, 0);
    } else {
      var t := h[1..];
      CountZeroIffNoMatch(t, n);
      if NoMatch(t, n) {
        forall i | 0 <= i < |h| + 1
          ensures !MatchAt(h, n, i)
        {
          if i > 0 {
            MatchShift(h, n, i);
          }
        }
      } else {
        var j :| 0 <= j < |t| + 1 && MatchAt(t, n, j);
        MatchShift(h, n, j + 1);
      }
    }
  }

  /** Without an occurrence, replacing changes nothing. */
  lemma ReplaceUnmatched<T>(h: seq<T>, n: seq<T>, r: seq<T>)
    requires |n| > 0
    requires Count(h, n) == 0
    ensures Replace(h, n, r) == h
  {
    CountIsCuts(h, n);
    ReplaceIsJoin(h, n, r);
  }
}

=== FILE: transaction.dfy ===
/**
 The sanitizer's transaction over an abstract file system, and the read-only
 verification pass that follows it.

 The file system maps paths to file contents. A container file is a
 `ZipFile` holding its entries, so the ZIP codec itself is not modelled. Each
 file-system step the sanitizer takes can be made to fail by listing it in
 `faults`. Python exceptions become either the `except` handler (restore from
 the backup, return 0) or, outside the `try`, an exception that escapes.
 */
module Transaction {
  import Search
  import Bytes
  import Latin1
  import Patcher
  import Archive

  /**
   What a path holds. `Incomplete` is the `.temp` output left behind when
   writing entries into the new container fails: a container holding only
   the entries written so far, whose contents are not modelled.
   */
  datatype Content = ZipFile(entries: Archive.Entries) | Plain(bytes: seq<Bytes.Byte>) | Incomplete

  type FileSys = map<string, Content>

  /** The file-system steps that can fail, in the order the sanitizer takes them. */
  datatype Step =
    | CopyBackup      // shutil.copy2 to the backup, before the try
    | MakeStaging     // tempfile.mkdtemp, before the try
    | Unzip           // extracting the container into the staging directory
    | ReadBlob        // reading the staged vbaProject.bin
    | WriteBlob       // writing the patched bytes back to the staged file
    | WriteZip        // writing the new container to `<path>.temp`
    | RemoveOriginal  // os.remove of the original file
    | RenameOutput    // os.rename of `<path>.temp` to the original path
    | RestoreBackup   // shutil.copy2 from the backup in the except handler

  /** None of the steps inside the try block, whose failure triggers the restore, fails. */
  predicate TryClean(faults: set<Step>)
  {
    && Unzip !in faults && ReadBlob !in faults && WriteBlob !in faults
    && WriteZip !in faults && RemoveOriginal !in faults && RenameOutput !in faults
  }

  /** How a run of the sanitizer ends. */
  datatype Exit =
    | Raised              // an exception escapes to the caller
    | NoProject           // no xl/vbaProject.bin after extraction
    | NothingToReplace    // the search text does not occur
    | Restored            // a step failed and the except handler ran
    | Replaced(count: int) // the new container was swapped in
  {
    predicate Returns()
    {
      !Raised?
    }

    /** The value the sanitizer returns. */
    function Value(): int
      requires Returns()
    {
      if Replaced? then count else 0
    }
  }

  datatype Run = Run(fs: FileSys, exit: Exit)

  /** The backup lies beside the original: its name extends the original's. */
  function BackupPath(path: string): (b: string)
    ensures |b| > |path| && b[..|path|] == path
  {
    path + ".backup"
  }

  /**
   The new container is written beside the original: its name extends the
   original's, and it never clashes with the backup.
   */
  function TempPath(path: string): (t: string)
    ensures |t| > |path| && t[..|path|] == path
    ensures t != BackupPath(path)
  {
    var t := path + ".temp";
    assert t[|path| + 1] == 't' && BackupPath(path)[|path| + 1] == 'b';
    t
  }

  lemma PathsDistinct(path: string)
    ensures BackupPath(path) != path && TempPath(path) != path
    ensures BackupPath(path) != TempPath(path)
  {
    assert BackupPath(path)[|path| + 1] == 'b';
    assert TempPath(path)[|path| + 1] == 't';
  }

  /** os.path.exists: a file, or a directory some file lies inside. */
  predicate Exists(fs: FileSys, p: string)
  {
    p in fs || exists q | q in fs :: Archive.Under(p, q)
  }

  /** os.walk(root): the plain files inside the staging directory, as bytes. */
  function Walk(fs: FileSys, root: string): (w: map<string, seq<Bytes.Byte>>)
    ensures forall q | q in w :: q in fs && Archive.Under(root, q) && fs[q] == Plain(w[q])
    ensures forall q | q in fs && Archive.Under(root, q) && fs[q].Plain? :: q in w
  {
    map q | q in fs && Archive.Under(root, q) && fs[q].Plain? :: fs[q].bytes
  }

  /** No file lies inside the staging directory. */
  predicate Outside(fs: FileSys, root: string)
  {
    forall q | q in fs :: !Archive.Under(root, q)
  }

  /**
   What tempfile.mkdtemp guarantees: a new, empty directory, and the
   sanitizer's own paths lie outside it.
   */
  predicate FreshStaging(fs: FileSys, root: string, path: string)
  {
    && Outside(fs, root)
    && !Archive.Under(root, path)
    && !Archive.Under(root, BackupPath(path))
    && !Archive.Under(root, TempPath(path))
  }

  /** The file system after extracting entries `e` into the staging directory `root`. */
  function Extract(fs: FileSys, root: string, e: Archive.Entries): (fs': FileSys)
    requires Archive.Extractable(e)
    requires Outside(fs, root)
    ensures forall q | q in fs :: q in fs' && fs'[q] == fs[q]
    ensures forall q | q in fs' && q !in fs :: Archive.Under(root, q)
    ensures forall p | p in e :: Archive.JoinPath(root, p) in fs' && fs'[Archive.JoinPath(root, p)] == Plain(e[p])
  {
    var staged := Archive.Stage(root, e);
    fs + map q | q in staged :: Plain(staged[q])
  }

  /** shutil.rmtree(root): every file inside the staging directory is gone. */
  function RemoveTree(fs: FileSys, root: string): (fs': FileSys)
    ensures Outside(fs', root)
    ensures forall q | !Archive.Under(root, q) :: (q in fs' <==> q in fs) && (q in fs ==> fs'[q] == fs[q])
  {
    map q | q in fs && !Archive.Under(root, q) :: fs[q]
  }

  /**
   The except handler: copy the backup over the original path and return 0.
   The copy itself can fail, and then the exception escapes. The handler's
   test that the backup exists always succeeds here: the backup is made
   before the try block and nothing inside it touches the backup.
   */
  function Recover(fs: FileSys, path: string, faults: set<Step>): (run: Run)
    requires BackupPath(path) in fs
    ensures run.exit == Restored || run.exit == Raised
    ensures run.exit == Raised <==> RestoreBackup in faults
    ensures run.exit == Restored ==> path in run.fs && run.fs[path] == fs[BackupPath(path)]
    ensures forall q | q != path :: (q in run.fs <==> q in fs) && (q in fs ==> run.fs[q] == fs[q])
  {
    if RestoreBackup in faults then Run(fs, Raised)
    else Run(fs[path := fs[BackupPath(path)]], Restored)
  }

  /**
   `x` differs from `fs` at most at the original path, the `.temp` output
   and inside the staging directory, and still holds the backup of the original.
   */
  ghost predicate Agrees(x: FileSys, fs: FileSys, path: string, root: string)
    requires path in fs
  {
    && BackupPath(path) in x && x[BackupPath(path)] == fs[path]
    && forall q | q != path && q != TempPath(path) && !Archive.Under(root, q)
         :: (q in x <==> q in fs) && (q in fs ==> x[q] == fs[q])
  }

  /**
   The guarantees every exit of the try block keeps, relative to the file
   system `fs` right after the backup: the backup is intact and nothing else
   outside the original, the `.temp` output and the staging directory
   changed; the original is as it was unless the new container was swapped
   in; an exception escapes only from a failing restore, and then the
   original path holds the original or nothing, never a partial container;
   and a swap happens only when no step failed.
   */
  ghost predicate Kept(fs: FileSys, run: Run, path: string, root: string, search: seq<Bytes.Byte>, repl: seq<Bytes.Byte>, faults: set<Step>)
    requires |search| > 0
    requires path in fs
  {
    && Agrees(run.fs, fs, path, root)
    && (run.exit.Returns() && !run.exit.Replaced? ==> path in run.fs && run.fs[path] == fs[path])
    && (run.exit.Raised? ==> RestoreBackup in faults)
    && (run.exit.Raised? ==> path !in run.fs || run.fs[path] == fs[path])
    && (run.exit.Restored? ==> RestoreBackup !in faults)
    && (run.exit.Replaced? ==> TryClean(faults) && Swapped(fs[path], run, path, search, repl))
  }

  /** A container the sanitizer goes on to patch: extractable, with the macro project, in which the search text occurs. */
  predicate Patchable(c: Content, search: seq<Bytes.Byte>)
    requires |search| > 0
  {
    && c.ZipFile? && Archive.Extractable(c.entries)
    && Archive.VbaProject in c.entries
    && Search.Count(c.entries[Archive.VbaProject], search) > 0
  }

  /** The container opens and extracts: the steps before the project is looked up succeed. */
  predicate Opens(c: Content, faults: set<Step>)
  {
    Unzip !in faults && c.ZipFile? && Archive.Extractable(c.entries)
  }

  /** The staged project is read, and the search text does not occur in it. */
  predicate ReadsUnmatched(c: Content, search: seq<Bytes.Byte>, faults: set<Step>)
    requires |search| > 0
    requires c.ZipFile?
  {
    && ReadBlob !in faults && Archive.VbaProject in c.entries
    && Search.Count(c.entries[Archive.VbaProject], search) == 0
  }

  /**
   What the `.temp` output holds when a run that got as far as writing it
   does not end in a swap: the partial container if writing into it
   failed, otherwise the complete patched container (removing the original
   or the rename failed). Neither the handler nor the cleanup removes it.
   */
  ghost predicate TempLeft(original: Content, run: Run, path: string, search: seq<Bytes.Byte>, repl: seq<Bytes.Byte>, faults: set<Step>)
    requires |search| > 0
    requires Patchable(original, search)
  {
    && (WriteZip in faults ==> TempPath(path) in run.fs && run.fs[TempPath(path)] == Incomplete)
    && (WriteZip !in faults && !run.exit.Replaced? ==>
          && TempPath(path) in run.fs
          && var blob := original.entries[Archive.VbaProject];
             run.fs[TempPath(path)] == ZipFile(original.entries[Archive.VbaProject := Search.Replace(blob, search, repl)]))
  }

  /** A container write that fails leaves a partial `.temp` and goes to the handler. */
  lemma FailedWriteKept(fs: FileSys, written: FileSys, path: string, root: string, search: seq<Bytes.Byte>, repl: seq<Bytes.Byte>, faults: set<Step>)
    requires |search| > 0
    requires path in fs && Agrees(written, fs, path, root)
    requires !Archive.Under(root, BackupPath(path))
    requires path in written && written[path] == fs[path]
    ensures Kept(fs, Recover(written[TempPath(path) := Incomplete], path, faults), path, root, search, repl, faults)
  {
    PathsDistinct(path);
    WriteAgrees(written, fs, path, root, TempPath(path), Incomplete);
    RecoverKept(fs, written[TempPath(path) := Incomplete], path, root, search, repl, faults);
  }

  /** Recovering from any state that agrees with `fs` keeps the guarantees. */
  lemma RecoverKept(fs: FileSys, x: FileSys, path: string, root: string, search: seq<Bytes.Byte>, repl: seq<Bytes.Byte>, faults: set<Step>)
    requires |search| > 0
    requires path in fs && Agrees(x, fs, path, root)
    requires path !in x || x[path] == fs[path]
    ensures Kept(fs, Recover(x, path, faults), path, root, search, repl, faults)
  {
    PathsDistinct(path);
  }

  /** Extracting into a fresh staging directory only adds files inside it. */
  lemma ExtractAgrees(fs: FileSys, path: string, root: string, e: Archive.Entries)
    requires FreshStaging(fs, root, path) && Archive.Extractable(e)
    requires path in fs && BackupPath(path) in fs && fs[BackupPath(path)] == fs[path]
    ensures Agrees(Extract(fs, root, e), fs, path, root)
  {
  }

  /** Extracting and writing the patched blob into the staging tree leave the original alone. */
  lemma StagedKeepsOriginal(fs: FileSys, path: string, root: string, e: Archive.Entries, c: Content)
    requires FreshStaging(fs, root, path) && Archive.Extractable(e) && path in fs
    ensures var written := Extract(fs, root, e)[Archive.JoinPath(root, Archive.VbaProject) := c];
            path in written && written[path] == fs[path]
  {
    Archive.RelPathOfJoin(root, Archive.VbaProject);
  }

  /** Writing the original, the `.temp` output or a staged file keeps the agreement. */
  lemma WriteAgrees(x: FileSys, fs: FileSys, path: string, root: string, q: string, c: Content)
    requires path in fs && Agrees(x, fs, path, root)
    requires !Archive.Under(root, BackupPath(path))
    requires q == path || q == TempPath(path) || Archive.Under(root, q)
    ensures Agrees(x[q := c], fs, path, root)
  {
    PathsDistinct(path);
  }

  /**
   The try block and its except handler, run after the backup exists:
   extract the container into the staging directory, or recover if that fails.
   */
  function Attempt(fs: FileSys, path: string, root: string, search: seq<Bytes.Byte>, repl: seq<Bytes.Byte>, faults: set<Step>): (run: Run)
    requires |search| > 0
    requires FreshStaging(fs, root, path)
    requires path in fs && BackupPath(path) in fs && fs[BackupPath(path)] == fs[path]
    ensures Kept(fs, run, path, root, search, repl, faults)
    ensures && TryClean(faults)
            && fs[path].ZipFile? && Archive.Extractable(fs[path].entries)
            && Archive.VbaProject in fs[path].entries
            && Search.Count(fs[path].entries[Archive.VbaProject], search) > 0
            ==> run.exit.Replaced?
    ensures Unzip in faults || !fs[path].ZipFile? || !Archive.Extractable(fs[path].entries)
            ==> run.exit.Raised? || run.exit.Restored?
    ensures run.exit == NoProject <==> Opens(fs[path], faults) && !ProjectStaged(fs[path].entries)
    ensures run.exit == NothingToReplace <==> Opens(fs[path], faults) && ReadsUnmatched(fs[path], search, faults)
    ensures Unzip !in faults && ReadBlob !in faults && WriteBlob !in faults && Patchable(fs[path], search)
            ==> TempLeft(fs[path], run, path, search, repl, faults)
  {
    var original := fs[path];
    if Unzip in faults || !original.ZipFile? || !Archive.Extractable(original.entries) then
      RecoverKept(fs, fs, path, root, search, repl, faults);
      Recover(fs, path, faults)
    else
      Process(fs, path, root, search, repl, faults)
  }

  /** Locate, read and count in the staged macro project. */
  function Process(fs: FileSys, path: string, root: string, search: seq<Bytes.Byte>, repl: seq<Bytes.Byte>, faults: set<Step>): (run: Run)
    requires |search| > 0
    requires FreshStaging(fs, root, path)
    requires path in fs && BackupPath(path) in fs && fs[BackupPath(path)] == fs[path]
    requires Unzip !in faults && fs[path].ZipFile? && Archive.Extractable(fs[path].entries)
    ensures Kept(fs, run, path, root, search, repl, faults)
    ensures && TryClean(faults)
            && Archive.VbaProject in fs[path].entries
            && Search.Count(fs[path].entries[Archive.VbaProject], search) > 0
            ==> run.exit.Replaced?
    ensures run.exit == NoProject <==> !ProjectStaged(fs[path].entries)
    ensures run.exit == NothingToReplace <==> ReadsUnmatched(fs[path], search, faults)
    ensures && ProjectStaged(fs[path].entries)
            && (ReadBlob in faults || Archive.VbaProject !in fs[path].entries)
            ==> run.exit.Raised? || run.exit.Restored?
    ensures ReadBlob !in faults && WriteBlob !in faults && Patchable(fs[path], search)
            ==> TempLeft(fs[path], run, path, search, repl, faults)
  {
    var staged := Extract(fs, root, fs[path].entries);
    var target := Archive.JoinPath(root, Archive.VbaProject);
    assert Agrees(staged, fs, path, root);
    ExistsAfterExtract(fs, root, fs[path].entries, Archive.VbaProject);
    if !Exists(staged, target) then
      Run(staged, NoProject)
    else if ReadBlob in faults || target !in staged || !staged[target].Plain? then
      RecoverKept(fs, staged, path, root, search, repl, faults);
      Recover(staged, path, faults)
    else
      var blob := staged[target].bytes;
      assert Archive.VbaProject in fs[path].entries && blob == fs[path].entries[Archive.VbaProject] by {
        Archive.RelPathOfJoin(root, Archive.VbaProject);
      }
      Search.CountZeroIffNoMatch(blob, search);
      match Patcher.PatchBlob(blob, search, repl)
      case Unmatched =>
        Run(staged, NothingToReplace)
      case Patched(_, _, bytes) =>
        Commit(fs, path, root, search, repl, faults, bytes, Patcher.PatchBlob(blob, search, repl).Reported())
  }

  /** Writing the patched blob back to the staged file, or recovering if that fails. */
  function Commit(fs: FileSys, path: string, root: string, search: seq<Bytes.Byte>, repl: seq<Bytes.Byte>, faults: set<Step>,
                  patched: seq<Bytes.Byte>, reported: int): (run: Run)
    requires |search| > 0
    requires FreshStaging(fs, root, path)
    requires path in fs && BackupPath(path) in fs && fs[BackupPath(path)] == fs[path]
    requires Unzip !in faults && ReadBlob !in faults
    requires fs[path].ZipFile? && Archive.Extractable(fs[path].entries)
    requires Archive.VbaProject in fs[path].entries
    requires PatchOutcome(fs[path].entries[Archive.VbaProject], search, repl, patched, reported)
    ensures Kept(fs, run, path, root, search, repl, faults)
    ensures WriteBlob !in faults && WriteZip !in faults && RemoveOriginal !in faults && RenameOutput !in faults ==> run.exit.Replaced?
    ensures !run.exit.NoProject? && !run.exit.NothingToReplace?
    ensures WriteBlob !in faults ==> TempLeft(fs[path], run, path, search, repl, faults)
  {
    var staged := Extract(fs, root, fs[path].entries);
    ExtractAgrees(fs, path, root, fs[path].entries);
    if WriteBlob in faults then
      RecoverKept(fs, staged, path, root, search, repl, faults);
      Recover(staged, path, faults)
    else
      Pack(fs, path, root, search, repl, faults, patched, reported)
  }

  /** Write the patched blob to the staged file and every staged file into the new container at `<path>.temp`. */
  function Pack(fs: FileSys, path: string, root: string, search: seq<Bytes.Byte>, repl: seq<Bytes.Byte>, faults: set<Step>,
                patched: seq<Bytes.Byte>, reported: int): (run: Run)
    requires |search| > 0
    requires FreshStaging(fs, root, path)
    requires path in fs && BackupPath(path) in fs && fs[BackupPath(path)] == fs[path]
    requires Unzip !in faults && ReadBlob !in faults && WriteBlob !in faults
    requires fs[path].ZipFile? && Archive.Extractable(fs[path].entries)
    requires Archive.VbaProject in fs[path].entries
    requires PatchOutcome(fs[path].entries[Archive.VbaProject], search, repl, patched, reported)
    ensures Kept(fs, run, path, root, search, repl, faults)
    ensures WriteZip !in faults && RemoveOriginal !in faults && RenameOutput !in faults ==> run.exit.Replaced?
    ensures !run.exit.NoProject? && !run.exit.NothingToReplace?
    ensures TempLeft(fs[path], run, path, search, repl, faults)
  {
    var e := fs[path].entries;
    var staged := Extract(fs, root, e);
    var target := Archive.JoinPath(root, Archive.VbaProject);
    Archive.RelPathOfJoin(root, Archive.VbaProject);
    ExtractAgrees(fs, path, root, e);
    WriteAgrees(staged, fs, path, root, target, Plain(patched));
    var written := staged[target := Plain(patched)];
    var temp := TempPath(path);
    StagedKeepsOriginal(fs, path, root, e, Plain(patched));
    PathsDistinct(path);
    if WriteZip in faults then
      FailedWriteKept(fs, written, path, root, search, repl, faults);
      Recover(written[temp := Incomplete], path, faults)
    else
      var packed := written[temp := ZipFile(Archive.Repack(root, Walk(written, root)))];
      SwapIsPatch(fs, root, e, search, repl);
      WriteAgrees(written, fs, path, root, temp, ZipFile(e[Archive.VbaProject := patched]));
      Swap(fs, packed, path, root, search, repl, faults, reported)
  }

  /** Remove the original, then rename `<path>.temp` over it. */
  function Swap(fs: FileSys, packed: FileSys, path: string, root: string, search: seq<Bytes.Byte>, repl: seq<Bytes.Byte>, faults: set<Step>, reported: int): (run: Run)
    requires |search| > 0
    requires path in fs && Agrees(packed, fs, path, root)
    requires path in packed && packed[path] == fs[path]
    requires Unzip !in faults && ReadBlob !in faults && WriteBlob !in faults && WriteZip !in faults
    requires fs[path].ZipFile? && Archive.Extractable(fs[path].entries) && Archive.VbaProject in fs[path].entries
    requires PatchOutcome(fs[path].entries[Archive.VbaProject], search, repl, Search.Replace(fs[path].entries[Archive.VbaProject], search, repl), reported)
    requires TempPath(path) in packed
    requires var e := fs[path].entries;
             packed[TempPath(path)] == ZipFile(e[Archive.VbaProject := Search.Replace(e[Archive.VbaProject], search, repl)])
    ensures Kept(fs, run, path, root, search, repl, faults)
    ensures RemoveOriginal !in faults && RenameOutput !in faults ==> run.exit.Replaced?
    ensures !run.exit.NoProject? && !run.exit.NothingToReplace?
    ensures !run.exit.Replaced? ==> TempPath(path) in run.fs && run.fs[TempPath(path)] == packed[TempPath(path)]
  {
    PathsDistinct(path);
    if RemoveOriginal in faults then
      RecoverKept(fs, packed, path, root, search, repl, faults);
      Recover(packed, path, faults)
    else
      var removed := packed - {path};
      assert Agrees(removed, fs, path, root);
      Rename(fs, removed, path, root, search, repl, faults, reported)
  }

  /** Rename `<path>.temp` over the removed original. */
  function Rename(fs: FileSys, removed: FileSys, path: string, root: string, search: seq<Bytes.Byte>, repl: seq<Bytes.Byte>, faults: set<Step>, reported: int): (run: Run)
    requires |search| > 0
    requires path in fs && Agrees(removed, fs, path, root)
    requires path !in removed
    requires Unzip !in faults && ReadBlob !in faults && WriteBlob !in faults && WriteZip !in faults && RemoveOriginal !in faults
    requires fs[path].ZipFile? && Archive.Extractable(fs[path].entries) && Archive.VbaProject in fs[path].entries
    requires PatchOutcome(fs[path].entries[Archive.VbaProject], search, repl, Search.Replace(fs[path].entries[Archive.VbaProject], search, repl), reported)
    requires TempPath(path) in removed
    requires var e := fs[path].entries;
             removed[TempPath(path)] == ZipFile(e[Archive.VbaProject := Search.Replace(e[Archive.VbaProject], search, repl)])
    ensures Kept(fs, run, path, root, search, repl, faults)
    ensures RenameOutput !in faults ==> run.exit.Replaced?
    ensures !run.exit.NoProject? && !run.exit.NothingToReplace?
    ensures !run.exit.Replaced? ==> TempPath(path) in run.fs && run.fs[TempPath(path)] == removed[TempPath(path)]
  {
    PathsDistinct(path);
    var temp := TempPath(path);
    if RenameOutput in faults then
      RecoverKept(fs, removed, path, root, search, repl, faults);
      Recover(removed, path, faults)
    else
      RenameKept(fs, removed, path, root, search, repl, faults, reported);
      Run((removed - {temp})[path := removed[temp]], Replaced(reported))
  }

  /** A successful rename completes the swap. */
  lemma RenameKept(fs: FileSys, removed: FileSys, path: string, root: string, search: seq<Bytes.Byte>, repl: seq<Bytes.Byte>, faults: set<Step>, reported: int)
    requires |search| > 0
    requires path in fs && Agrees(removed, fs, path, root)
    requires TryClean(faults)
    requires fs[path].ZipFile? && Archive.Extractable(fs[path].entries) && Archive.VbaProject in fs[path].entries
    requires PatchOutcome(fs[path].entries[Archive.VbaProject], search, repl, Search.Replace(fs[path].entries[Archive.VbaProject], search, repl), reported)
    requires TempPath(path) in removed
    requires var e := fs[path].entries;
             removed[TempPath(path)] == ZipFile(e[Archive.VbaProject := Search.Replace(e[Archive.VbaProject], search, repl)])
    ensures Kept(fs, Run((removed - {TempPath(path)})[path := removed[TempPath(path)]], Replaced(reported)), path, root, search, repl, faults)
  {
    PathsDistinct(path);
    RenameAgrees(removed, fs, path, root);
    var run := Run((removed - {TempPath(path)})[path := removed[TempPath(path)]], Replaced(reported));
    assert path in run.fs && run.fs[path] == removed[TempPath(path)];
    assert TempPath(path) !in run.fs;
    assert Swapped(fs[path], run, path, search, repl);
  }

  /** Moving `<path>.temp` onto the original path keeps the agreement. */
  lemma RenameAgrees(x: FileSys, fs: FileSys, path: string, root: string)
    requires path in fs && Agrees(x, fs, path, root) && TempPath(path) in x
    ensures Agrees((x - {TempPath(path)})[path := x[TempPath(path)]], fs, path, root)
  {
    PathsDistinct(path);
  }

  /**
   What the patcher hands on when the search text occurs: the patched bytes
   are the replacement of every occurrence, and the number to report is the
   count before minus the count after.
   */
  predicate PatchOutcome(blob: seq<Bytes.Byte>, search: seq<Bytes.Byte>, repl: seq<Bytes.Byte>, patched: seq<Bytes.Byte>, reported: int)
    requires |search| > 0
  {
    && Search.Count(blob, search) > 0
    && patched == Search.Replace(blob, search, repl)
    && reported == Search.Count(blob, search) - Search.Count(patched, search)
  }

  /**
   The run swapped in the patched container: the original held a container
   with the macro project, the original path now holds the same entries with
   only the project replaced by its patched bytes, the `.temp` output is
   gone, and the count is the occurrences before minus those after.
   */
  ghost predicate Swapped(original: Content, run: Run, path: string, search: seq<Bytes.Byte>, repl: seq<Bytes.Byte>)
    requires |search| > 0
  {
    && original.ZipFile? && Archive.Extractable(original.entries)
    && Archive.VbaProject in original.entries
    && var blob := original.entries[Archive.VbaProject];
       var patched := Search.Replace(blob, search, repl);
       && Search.Count(blob, search) > 0
       && run.exit == Replaced(Search.Count(blob, search) - Search.Count(patched, search))
       && path in run.fs
       && run.fs[path] == ZipFile(original.entries[Archive.VbaProject := patched])
       && TempPath(path) !in run.fs
  }

  /** Writing the patched blob into the staging area and repacking gives the patched entries. */
  lemma SwapIsPatch(fs: FileSys, root: string, e: Archive.Entries, search: seq<Bytes.Byte>, repl: seq<Bytes.Byte>)
    requires |search| > 0
    requires Outside(fs, root) && Archive.Extractable(e) && Archive.VbaProject in e
    ensures
      var target := Archive.JoinPath(root, Archive.VbaProject);
      var patched := Search.Replace(e[Archive.VbaProject], search, repl);
      Archive.Repack(root, Walk(Extract(fs, root, e)[target := Plain(patched)], root))
        == e[Archive.VbaProject := patched]
  {
    var target := Archive.JoinPath(root, Archive.VbaProject);
    var patched := Search.Replace(e[Archive.VbaProject], search, repl);
    WalkExtracted(fs, root, e, target, patched);
    Archive.RepackPatched(root, e, Archive.VbaProject, patched);
  }

  /** Walking the staging directory finds exactly the extracted files, one of them overwritten. */
  lemma WalkExtracted(fs: FileSys, root: string, e: Archive.Entries, target: string, b: seq<Bytes.Byte>)
    requires Outside(fs, root) && Archive.Extractable(e)
    requires target in Archive.Stage(root, e)
    ensures Walk(Extract(fs, root, e)[target := Plain(b)], root) == Archive.Stage(root, e)[target := b]
  {
    var lhs := Walk(Extract(fs, root, e)[target := Plain(b)], root);
    var rhs := Archive.Stage(root, e)[target := b];
    WalkFindsStaged(fs, root, e, target, b);
    WalkOnlyStaged(fs, root, e, target, b);
    Archive.SameEntries(lhs, rhs);
  }

  lemma WalkFindsStaged(fs: FileSys, root: string, e: Archive.Entries, target: string, b: seq<Bytes.Byte>)
    requires Outside(fs, root) && Archive.Extractable(e)
    requires target in Archive.Stage(root, e)
    ensures var lhs := Walk(Extract(fs, root, e)[target := Plain(b)], root);
            forall q | q in Archive.Stage(root, e)[target := b] :: q in lhs
  {
  }

  lemma WalkOnlyStaged(fs: FileSys, root: string, e: Archive.Entries, target: string, b: seq<Bytes.Byte>)
    requires Outside(fs, root) && Archive.Extractable(e)
    requires target in Archive.Stage(root, e)
    ensures var rhs := Archive.Stage(root, e)[target := b];
            forall q | q in Walk(Extract(fs, root, e)[target := Plain(b)], root) :: q in rhs && Walk(Extract(fs, root, e)[target := Plain(b)], root)[q] == rhs[q]
  {
    var lhs := Walk(Extract(fs, root, e)[target := Plain(b)], root);
    var rhs := Archive.Stage(root, e)[target := b];
    forall q | q in lhs
      ensures q in rhs && lhs[q] == rhs[q]
    {
      WalkEntry(fs, root, e, target, b, q);
    }
  }

  lemma WalkEntry(fs: FileSys, root: string, e: Archive.Entries, target: string, b: seq<Bytes.Byte>, q: string)
    requires Outside(fs, root) && Archive.Extractable(e)
    requires target in Archive.Stage(root, e)
    requires q in Walk(Extract(fs, root, e)[target := Plain(b)], root)
    ensures q in Archive.Stage(root, e)[target := b]
    ensures Walk(Extract(fs, root, e)[target := Plain(b)], root)[q] == Archive.Stage(root, e)[target := b][q]
  {
    assert q !in fs;
  }

  /**
   sanitize_vba_in_xlsm: back up, then attempt the patch; the staging
   directory is removed on every exit from the try block.
   */
  function Sanitize(fs: FileSys, path: string, root: string, search: seq<Bytes.Byte>, repl: seq<Bytes.Byte>, faults: set<Step>): (run: Run)
    requires |search| > 0
    requires FreshStaging(fs, root, path)
    ensures path in fs && CopyBackup !in faults ==> BackupPath(path) in run.fs && run.fs[BackupPath(path)] == fs[path]
    ensures path !in fs || CopyBackup in faults ==> run == Run(fs, Raised)
    ensures Outside(run.fs, root)
    ensures forall q | q != path && q != BackupPath(path) && q != TempPath(path)
              :: (q in run.fs <==> q in fs) && (q in fs ==> run.fs[q] == fs[q])
    ensures run.exit.Returns() && !run.exit.Replaced? ==> path in fs && path in run.fs && run.fs[path] == fs[path]
    ensures run.exit.Raised? ==> path !in fs || CopyBackup in faults || MakeStaging in faults || RestoreBackup in faults
    ensures path in fs && CopyBackup !in faults && MakeStaging in faults ==> run == Run(fs[BackupPath(path) := fs[path]], Raised)
    ensures run.exit.Raised? && path in fs ==> path !in run.fs || run.fs[path] == fs[path]
    ensures run.exit.Restored? ==> RestoreBackup !in faults
    ensures run.exit.Replaced?
            ==> && path in fs && CopyBackup !in faults && MakeStaging !in faults && TryClean(faults)
                && Swapped(fs[path], run, path, search, repl)
    ensures && path in fs && fs[path].ZipFile? && Archive.Extractable(fs[path].entries)
            && Archive.VbaProject in fs[path].entries
            && Search.Count(fs[path].entries[Archive.VbaProject], search) > 0
            && CopyBackup !in faults && MakeStaging !in faults && TryClean(faults)
            ==> run.exit.Replaced?
    ensures && path in fs && CopyBackup !in faults && MakeStaging !in faults
            && (Unzip in faults || !fs[path].ZipFile? || !Archive.Extractable(fs[path].entries))
            ==> run.exit.Raised? || run.exit.Restored?
    ensures run.exit == NoProject
        <==> && path in fs && CopyBackup !in faults && MakeStaging !in faults
             && Opens(fs[path], faults) && !ProjectStaged(fs[path].entries)
    ensures run.exit == NothingToReplace
        <==> && path in fs && CopyBackup !in faults && MakeStaging !in faults
             && Opens(fs[path], faults) && ReadsUnmatched(fs[path], search, faults)
    ensures && path in fs && CopyBackup !in faults && MakeStaging !in faults
            && Unzip !in faults && ReadBlob !in faults && WriteBlob !in faults && Patchable(fs[path], search)
            ==> TempLeft(fs[path], run, path, search, repl, faults)
  {
    if path !in fs || CopyBackup in faults then
      Run(fs, Raised)
    else if MakeStaging in faults then
      PathsDistinct(path);
      Run(fs[BackupPath(path) := fs[path]], Raised)
    else
      Guarded(fs, path, root, search, repl, faults)
  }

  /** The try block after the backup and the staging directory exist, followed by removing the staging directory. */
  function Guarded(fs: FileSys, path: string, root: string, search: seq<Bytes.Byte>, repl: seq<Bytes.Byte>, faults: set<Step>): (run: Run)
    requires |search| > 0
    requires FreshStaging(fs, root, path)
    requires path in fs
    ensures BackupPath(path) in run.fs && run.fs[BackupPath(path)] == fs[path]
    ensures Outside(run.fs, root)
    ensures forall q | q != path && q != BackupPath(path) && q != TempPath(path)
              :: (q in run.fs <==> q in fs) && (q in fs ==> run.fs[q] == fs[q])
    ensures run.exit.Returns() && !run.exit.Replaced? ==> path in run.fs && run.fs[path] == fs[path]
    ensures run.exit.Raised? ==> RestoreBackup in faults
    ensures run.exit.Raised? ==> path !in run.fs || run.fs[path] == fs[path]
    ensures run.exit.Restored? ==> RestoreBackup !in faults
    ensures run.exit.Replaced? ==> TryClean(faults) && Swapped(fs[path], run, path, search, repl)
    ensures && fs[path].ZipFile? && Archive.Extractable(fs[path].entries)
            && Archive.VbaProject in fs[path].entries
            && Search.Count(fs[path].entries[Archive.VbaProject], search) > 0
            && TryClean(faults)
            ==> run.exit.Replaced?
    ensures Unzip in faults || !fs[path].ZipFile? || !Archive.Extractable(fs[path].entries)
            ==> run.exit.Raised? || run.exit.Restored?
    ensures run.exit == NoProject <==> Opens(fs[path], faults) && !ProjectStaged(fs[path].entries)
    ensures run.exit == NothingToReplace <==> Opens(fs[path], faults) && ReadsUnmatched(fs[path], search, faults)
    ensures Unzip !in faults && ReadBlob !in faults && WriteBlob !in faults && Patchable(fs[path], search)
            ==> TempLeft(fs[path], run, path, search, repl, faults)
  {
    PathsDistinct(path);
    var backedUp := fs[BackupPath(path) := fs[path]];
    var run := Attempt(backedUp, path, root, search, repl, faults);
    Run(RemoveTree(run.fs, root), run.exit)
  }

  /**
   verify_replacement: -1 when the container cannot be read or has no
   macro project, otherwise the occurrences of the search text left in it.
   `fault` stands for any error while reading.
   */
  function VerifyReplacement(fs: FileSys, path: string, search: seq<Bytes.Byte>, fault: bool): (remaining: int)
    requires |search| > 0
    ensures remaining == -1
        <==> fault || path !in fs || !fs[path].ZipFile? || Archive.VbaProject !in fs[path].entries
    ensures remaining != -1 ==> remaining == Search.Count(fs[path].entries[Archive.VbaProject], search)
  {
    if fault || path !in fs || !fs[path].ZipFile? then -1
    else if Archive.VbaProject !in fs[path].entries then -1
    else
      var blob := fs[path].entries[Archive.VbaProject];
      Latin1.CountDecode(blob, search);
      Search.Count(Latin1.Decode(blob), Latin1.Decode(search))
  }

  /** Removing the staging directory undoes the extraction. */
  lemma RemoveTreeExtract(fs: FileSys, root: string, e: Archive.Entries)
    requires Outside(fs, root) && Archive.Extractable(e)
    ensures RemoveTree(Extract(fs, root, e), root) == fs
  {
  }

  /**
   What os.path.exists finds at the staged project path: the entry itself,
   or entries inside a directory of that name.
   */
  predicate ProjectStaged(e: Archive.Entries)
  {
    Archive.VbaProject in e || exists p | p in e :: Archive.Under(Archive.VbaProject, p)
  }

  /**
   After extraction, a name exists below the staging directory exactly when
   it is an entry or a directory that some entry lies inside.
   */
  lemma ExistsAfterExtract(fs: FileSys, root: string, e: Archive.Entries, name: string)
    requires Outside(fs, root) && Archive.Extractable(e) && |name| > 0
    ensures Exists(Extract(fs, root, e), Archive.JoinPath(root, name))
        <==> name in e || exists p | p in e :: Archive.Under(name, p)
  {
    var staged := Extract(fs, root, e);
    var target := Archive.JoinPath(root, name);
    Archive.RelPathOfJoin(root, name);
    if exists p | p in e :: Archive.Under(name, p) {
      var p :| p in e && Archive.Under(name, p);
      Archive.UnderJoin(root, name, p);
      assert Archive.Under(target, Archive.JoinPath(root, p));
    }
    if Exists(staged, target) && name !in e {
      assert target !in staged;
      var q :| q in staged && Archive.Under(target, q);
      Archive.UnderTransitive(root, target, q);
      var p := Archive.RelPath(root, q);
      Archive.UnderJoin(root, name, p);
    }
  }

  /**
   If the container has no macro project, the run returns 0 and the only
   trace it leaves is the backup; the original file is untouched.
   */
  lemma MissingProjectLeavesFile(fs: FileSys, path: string, root: string, search: seq<Bytes.Byte>, repl: seq<Bytes.Byte>, faults: set<Step>)
    requires |search| > 0 && FreshStaging(fs, root, path)
    requires path in fs && fs[path].ZipFile? && Archive.Extractable(fs[path].entries)
    requires CopyBackup !in faults && MakeStaging !in faults && Unzip !in faults
    requires !ProjectStaged(fs[path].entries)
    ensures Sanitize(fs, path, root, search, repl, faults) == Run(fs[BackupPath(path) := fs[path]], NoProject)
    ensures Sanitize(fs, path, root, search, repl, faults).exit.Value() == 0
  {
    PathsDistinct(path);
    var fs1 := fs[BackupPath(path) := fs[path]];
    var e := fs[path].entries;
    assert FreshStaging(fs1, root, path);
    ExistsAfterExtract(fs1, root, e, Archive.VbaProject);
    assert Attempt(fs1, path, root, search, repl, faults) == Run(Extract(fs1, root, e), NoProject);
    RemoveTreeExtract(fs1, root, e);
  }

  /**
   If the search text does not occur in the macro project, the run returns 0
   and the only trace it leaves is the backup; the original file is untouched.
   */
  lemma NoOccurrenceLeavesFile(fs: FileSys, path: string, root: string, search: seq<Bytes.Byte>, repl: seq<Bytes.Byte>, faults: set<Step>)
    requires |search| > 0 && FreshStaging(fs, root, path)
    requires path in fs && fs[path].ZipFile? && Archive.Extractable(fs[path].entries)
    requires CopyBackup !in faults && MakeStaging !in faults && Unzip !in faults && ReadBlob !in faults
    requires Archive.VbaProject in fs[path].entries
    requires Search.Count(fs[path].entries[Archive.VbaProject], search) == 0
    ensures Sanitize(fs, path, root, search, repl, faults) == Run(fs[BackupPath(path) := fs[path]], NothingToReplace)
    ensures Sanitize(fs, path, root, search, repl, faults).exit.Value() == 0
  {
    PathsDistinct(path);
    var fs1 := fs[BackupPath(path) := fs[path]];
    var e := fs[path].entries;
    assert FreshStaging(fs1, root, path);
    var staged := Extract(fs1, root, e);
    var target := Archive.JoinPath(root, Archive.VbaProject);
    assert staged[target] == Plain(e[Archive.VbaProject]);
    Search.CountZeroIffNoMatch(e[Archive.VbaProject], search);
    assert Process(fs1, path, root, search, repl, faults) == Run(staged, NothingToReplace);
    RemoveTreeExtract(fs1, root, e);
  }

  /**
   A failure of any step inside the try block, with a working restore,
   leaves the original file with its original content, keeps the backup,
   and returns 0.
   */
  lemma FailureRestoresOriginal(fs: FileSys, path: string, root: string, search: seq<Bytes.Byte>, repl: seq<Bytes.Byte>, faults: set<Step>)
    requires |search| > 0 && FreshStaging(fs, root, path)
    requires path in fs
    requires CopyBackup !in faults && MakeStaging !in faults && RestoreBackup !in faults
    requires !TryClean(faults)
    ensures var run := Sanitize(fs, path, root, search, repl, faults);
            && run.exit.Returns() && run.exit.Value() == 0
            && path in run.fs && run.fs[path] == fs[path]
            && BackupPath(path) in run.fs && run.fs[BackupPath(path)] == fs[path]
  {
  }

  /**
   On a container the sanitizer goes on to patch, a failure of any step
   inside the try block followed by a failing restore lets the exception
   escape; the backup is still there.
   */
  lemma FailingRestoreRaises(fs: FileSys, path: string, root: string, search: seq<Bytes.Byte>, repl: seq<Bytes.Byte>, faults: set<Step>)
    requires |search| > 0 && FreshStaging(fs, root, path)
    requires path in fs && Patchable(fs[path], search)
    requires CopyBackup !in faults && MakeStaging !in faults && RestoreBackup in faults
    requires !TryClean(faults)
    ensures var run := Sanitize(fs, path, root, search, repl, faults);
            && run.exit == Raised
            && BackupPath(path) in run.fs && run.fs[BackupPath(path)] == fs[path]
  {
  }

  /**
   After a swap, the verification pass reads the occurrences left in the
   patched project, and the count the sanitizer returned plus that number is
   the count before replacing.
   */
  lemma VerifyAfterSwap(original: Content, run: Run, path: string, search: seq<Bytes.Byte>, repl: seq<Bytes.Byte>)
    requires |search| > 0
    requires Swapped(original, run, path, search, repl)
    ensures var blob := original.entries[Archive.VbaProject];
            var remaining := VerifyReplacement(run.fs, path, search, false);
            && remaining == Search.Count(Search.Replace(blob, search, repl), search)
            && run.exit.Value() + remaining == Search.Count(blob, search)
  {
  }

  /**
   The worked example: a container whose only entry is a macro project holding "XXfooXXbarXX",
   with "XX" replaced by "Y", ends up holding "YfooYbarY"; the run reports 3
   and the verification pass finds none left.
   */
  lemma ScenarioRun(fs: FileSys, path: string, root: string)
    requires FreshStaging(fs, root, path)
    requires path in fs && fs[path] == ZipFile(map[Archive.VbaProject := Patcher.ScenarioBlob])
    ensures var run := Sanitize(fs, path, root, Patcher.ScenarioSearch, Patcher.ScenarioRepl, {});
            && run.exit == Replaced(3)
            && path in run.fs && run.fs[path] == ZipFile(map[Archive.VbaProject := Patcher.ScenarioPatched])
            && VerifyReplacement(run.fs, path, Patcher.ScenarioSearch, false) == 0
  {
    assert Archive.Extractable(fs[path].entries) by {
      assert !Archive.Under(Archive.VbaProject, Archive.VbaProject);
    }
    Patcher.ScenarioCount();
    CleanRunSwaps(fs, path, root, Patcher.ScenarioSearch, Patcher.ScenarioRepl);
    ScenarioOutcome(fs[path], Sanitize(fs, path, root, Patcher.ScenarioSearch, Patcher.ScenarioRepl, {}), path);
  }

  /** With no failing step, a container the sanitizer goes on to patch is swapped. */
  lemma CleanRunSwaps(fs: FileSys, path: string, root: string, search: seq<Bytes.Byte>, repl: seq<Bytes.Byte>)
    requires |search| > 0 && FreshStaging(fs, root, path)
    requires path in fs && Patchable(fs[path], search)
    ensures Swapped(fs[path], Sanitize(fs, path, root, search, repl, {}), path, search, repl)
  {
    assert TryClean({});
  }

  /** Any swap of the worked example's container reports 3 and leaves "YfooYbarY" with nothing left to find. */
  lemma ScenarioOutcome(original: Content, run: Run, path: string)
    requires original == ZipFile(map[Archive.VbaProject := Patcher.ScenarioBlob])
    requires Swapped(original, run, path, Patcher.ScenarioSearch, Patcher.ScenarioRepl)
    ensures run.exit == Replaced(3)
    ensures path in run.fs && run.fs[path] == ZipFile(map[Archive.VbaProject := Patcher.ScenarioPatched])
    ensures VerifyReplacement(run.fs, path, Patcher.ScenarioSearch, false) == 0
  {
    Patcher.ScenarioReplace();
    Patcher.ScenarioCount();
    Patcher.ScenarioPatchedCount();
    VerifyAfterSwap(original, run, path, Patcher.ScenarioSearch, Patcher.ScenarioRepl);
    Archive.OverwriteSingleton(Archive.VbaProject, Patcher.ScenarioBlob, Patcher.ScenarioPatched);
  }
}
